=== FILE: README.md ===
# Regex-literal grammar, modelled in Dafny

This project models the recursive-descent grammar of `lib/grammar.macro.js`. The
grammar reads the text of a JavaScript regular-expression literal, `/…/flags`, and
builds a concrete syntax tree. That tree keeps every token and binds attributes:
`negate` on classes, sets and word boundaries, `min`/`max` on quantifiers, and six
booleans on `Flags`.

Every production is a pure function `Parse…(s, i, …)` over the whole input `s`. It
returns `None` for failure or `Some(Parsed(node, next))`, where `next` is the position
just after the node. The model has these modules:

- `Wrappers`: the `Option` and `Parsed` results.
- `Lexical`: digit runs, `parseInt` on digit strings, decimal rendering, and the
  flag-uniqueness test.
- `Syntax`: the tree datatypes, the `Flatten…` functions that rebuild a node's source
  text from its tokens, and the `WellFormed…` attribute invariants.
- `Escapes`: `EscapeSequence`, `EscapeCode`, the span-specific special characters, and
  cooking.
- `FlagsParser`, `Quantifiers`, `Characters`, `Assertions`: the leaf productions.
- `Grammar`: `Pattern`, `Alternatives`, `Elements`, `Element` and `Group`.
- `GrammarProperties`: properties that relate several productions or calls.
- `Scenarios`: the expected trees of `test/grammar.test.js`, stated as lemmas about
  `Parse`.

## How the grammar's runtime is represented

The grammar runs inside a parsing VM. It speaks to that VM through `eat`, `eatMatch`,
`match`, `guard` and `holdForMatch`, and the model expresses their effects directly:

- `eat` of an alternative list commits to the first case whose lead matches. A chosen
  production that then fails makes the whole element fail. For example, `[a` without
  a `]` fails.
- `guard` rejects an element that starts with `*`, `+` or `?`.
- `holdForMatch` wraps the node that was just parsed into a new `Quantifier` or
  `CharacterClassRange`.
  - The new node holds the old one in its `element` or `min` slot.
  - A range's `min` slot takes only a `Character` (line 240), and only the `Character`
    case of a class element is bound so that it can be moved (line 228). So a character
    set or a gap before `-` is never a range's `min`: it stays alone, and the `-` is read
    as the next element (`[\d-z]` is three elements).
  - When the wrapping production cannot be completed, the plain node is kept.
  - This is how `[--]` yields two `-` characters.
  - It applies to quantifiers too, so `a{x}` is read as literals.
- The VM's balanced regions become the character `closer`: `/` in a pattern, `)` in a
  group, `]` in a class.
  - The closer ends the element loops.
  - A `Character` never consumes it.
- `Parse` accepts an input only when the pattern consumes all of it.

Every production states a round trip: flattening the node rebuilds exactly the input
slice it consumed. Every production also states that the node is well formed, meaning
each attribute equals the value its tokens determine.

## Model

| member | source | states |
|---|---|---|
| Grammar.Parse | lib/grammar.macro.js:76-105 | A literal is accepted exactly when a pattern parses at its start and consumes all of it, and the result is that pattern. It flattens back to the whole input and its alternatives are well formed. The flag tokens are distinct, and there are six flag attributes in table order, each true iff its letter is among the tokens. |
| Grammar.ParsePattern | lib/grammar.macro.js:76-105 | A pattern needs a leading `/`. It then succeeds exactly when the alternatives after it parse and stop at a `/` whose flag letters do not repeat. The body is those alternatives, and the pattern ends after the flag letters. It flattens back to the consumed text, with the same flag facts as `Parse`. |
| Grammar.ClosePattern | lib/grammar.macro.js:79-81 | Once the alternatives are read, the pattern is closed exactly when a `/` follows them and the flag letters after it do not repeat. It then holds the alternatives unchanged and ends where the flag-letter run ends. |
| Grammar.ParseAlternatives | lib/grammar.macro.js:107-112 | Alternatives flatten back to the text and are well formed, and they stop only at the end of the input or at the active closer. The first alternative is the element list read at the start. There is no separator exactly when the alternatives end where that list ends. |
| Grammar.MoreAlternatives | lib/grammar.macro.js:109-111 | Given the first alternative's element list, the alternatives hold it first. They go on only when a `\|` follows it; otherwise they end with it. |
| Grammar.JoinAlternatives | lib/grammar.macro.js:109-111 | After a `\|`, there is a list exactly when the alternatives read after the `\|` parse. The list is the first alternative in front of them, with a `\|` in front of their separators, ending where they end. So it has at least one separator, ends after the `\|`, and stops at the end of the input or at the active closer. |
| Grammar.AlternativesStep | lib/grammar.macro.js:109-111 | When the first alternative stops at a `\|`, the alternatives are exactly that alternative joined to the alternatives read after the `\|`. |
| Grammar.AlternativesLast | lib/grammar.macro.js:111 | When the first alternative is not followed by `\|`, the alternatives are that one alternative alone, with no separator. |
| Grammar.AlternativesFailure | lib/grammar.macro.js:107-112 | The alternatives fail exactly when their first alternative's element list fails, or when that list stops at a `\|` and the alternatives after the `\|` fail. With `ElementsFailure` for each alternative, this fixes exactly which inputs fail. |
| Grammar.AlternativesFailPastBar | lib/grammar.macro.js:109-111 | When the first alternative stops at a `\|`, the alternatives fail exactly when the alternatives after the `\|` fail. |
| Grammar.AlternativesSucceedLast | lib/grammar.macro.js:109-111 | A first alternative whose element list parses and is not followed by `\|` makes the alternatives succeed. |
| Grammar.ParseElements | lib/grammar.macro.js:120-126 | The element list of an alternative flattens back to the text, and its elements are well formed. It stops only at the end, at `\|` or at the active closer. It is empty when it starts at one of those, and non-empty otherwise. `ElementsStep`, `ElementsAcceptance` and `ElementsFailure` state when it succeeds. |
| Grammar.ElementsStep | lib/grammar.macro.js:121-126 | A non-empty element list starts with the element `ParseElement` reads there, and its rest is the list read where that element ends. At a character that is not `\|` or the closer, the list parses exactly when that element parses and the list read after it parses. |
| Grammar.ElementsAcceptance | lib/grammar.macro.js:121-126 | The element list succeeds and ends at `k` exactly when the loop reaches `k` and `k` is the end, a `\|` or the closer. Reaching means that every element read before `k` starts at a non-stopping character, parses, and ends no later than `k`. |
| Grammar.ElementsFailure | lib/grammar.macro.js:121-126 | The element list fails exactly when the loop reaches a position that is not the end, a `\|` or the closer, and no element parses there. |
| Grammar.ParseElement | lib/grammar.macro.js:128-143 | An element parses iff it does not start with `*`, `+` or `?` and the dispatch succeeds. The result is the dispatched atom after quantifier re-parenting; it is well formed and flattens back to the text. |
| Grammar.Requantify | lib/grammar.macro.js:140-142 | The element becomes a `Quantifier` iff `*`, `+`, `?` or `{` follows it and a quantifier parses there. The quantifier's `element` is then exactly the dispatched node; otherwise the element is unchanged. |
| Grammar.ParseAtom | lib/grammar.macro.js:131-138 | The dispatch, first match wins. `[` gives exactly the character class. `(?:` gives a group or fails. `^`, `$`, `\b` and `\B` give exactly the assertion. `\g` gives the two-character gap. `.` and `\` with `d`, `s`, `w` or `p` in either case give the character set, succeeding iff it parses. Anything else gives a `Character` read in the pattern span, succeeding iff it parses. The node is never itself a quantifier. It is well formed and flattens back to the text. |
| Grammar.GroupDispatch | lib/grammar.macro.js:131-133 | At `(?:` the dispatch result is exactly the group production's, whatever the closer. |
| Grammar.ParseGroup | lib/grammar.macro.js:145-151 | A group yields a well-formed `Group` node that flattens back to the text. |
| Grammar.GroupAcceptance | lib/grammar.macro.js:145-151 | A group succeeds exactly when the alternatives after `(?:` parse and stop at a `)` rather than at the end of the input. It then holds those alternatives and ends just after the `)`. |
| FlagsParser.ParseFlags | lib/grammar.macro.js:84-105 | The flags consume the maximal `[gimsuy]` run and fail iff a letter repeats. The tokens are the letters in input order. There are six attributes in `flagCharacters` order, each true iff its letter occurs. |
| FlagsParser.FlagTableLetters | lib/grammar.macro.js:54-61 | The flag table has six rows. Each row's letter is a flag letter, no letter appears twice, and every flag letter appears. |
| FlagsParser.FlagRunEnd | lib/grammar.macro.js:88 | Returns the end of the longest run of flag letters: every character before it is a flag letter, and the character at it is not. |
| FlagsParser.FlagAttributes | lib/grammar.macro.js:94-100 | There is one attribute per table row, with the row's name, true iff the row's letter occurs in the letters. |
| FlagsParser.FlagsAtEnd | lib/grammar.macro.js:85-92 | With no flag letters, the flags are empty and all six attributes are false. |
| FlagsParser.FlagsOrderIndependent | lib/grammar.macro.js:94-100 | Two flag runs with the same set of letters bind identical attributes, whatever the order of the letters. |
| Lexical.Unique | lib/grammar.macro.js:63 | The length-versus-set-size test `unique` holds exactly when no character repeats. |
| Lexical.UniqueIffDistinct | lib/grammar.macro.js:63 | For every string, being as long as its set of characters is the same as having no repeated character. |
| Lexical.DistinctSnoc | lib/grammar.macro.js:63 | Appending a character keeps a string repetition-free exactly when the character is new. |
| Lexical.DigitRunEnd | lib/grammar.macro.js:338 | Returns the end of the longest run of decimal digits, which is what `UnsignedInteger` consumes: every character before it is a digit, and the character at it is not. |
| Lexical.DecimalValue | lib/grammar.macro.js:324-325 | `parseInt(…, 10)` of a digit string is zero exactly when every digit is `0`. This is what makes such a bound null. |
| Lexical.HexValue | lib/grammar.macro.js:46 | `parseInt(…, 16)` of a digit string is zero exactly when every digit is `0`, and it is never less than the base-10 reading. |
| Lexical.DecimalRoundTrip | lib/grammar.macro.js:46-51 | Rendering a number in decimal (`toString(10)`) and reading the digits back (`parseInt(…, 10)`) gives the number. |
| Lexical.NatToDecimal | lib/grammar.macro.js:51 | A decimal rendering is a non-empty digit string that starts with `0` only for zero, which renders as `0` alone. |
| Syntax.BoundOf | lib/grammar.macro.js:332-333 | A brace bound's value binds null exactly when it is 0, and otherwise binds that value; it is never infinite. |
| Syntax.MinAttribute | lib/grammar.macro.js:301-332 | `+` binds `min` 1, and `*` and `?` bind null. A brace form binds its decimal value, or null when that value is 0. `min` is never 0 and never infinite. |
| Syntax.MaxAttribute | lib/grammar.macro.js:301-333 | `max` is infinite exactly for `*` and `+`, and `?` binds 1. A brace form without a comma, or without digits after the comma, binds null. Otherwise it binds the decimal value of the max digits, or null when that value is 0. |
| Quantifiers.QuantifierNode | lib/grammar.macro.js:294-297 | The new node holds the given element, and its bounds are the ones its form determines. Its text is the element's text followed by the form's. It is well formed exactly when the held element is well formed and is not itself a quantifier. |
| Quantifiers.ParseQuantifier | lib/grammar.macro.js:294-334 | A sigil always gives a one-character quantifier with the sigil's bounds. At `{`, it succeeds exactly when the brace form parses, with that form and end. Anything else fails. The held element is kept, and the text round-trips. |
| Quantifiers.ParseBraces | lib/grammar.macro.js:313-330 | Succeeds exactly when the digit run after `{` is non-empty and is followed by `}`, or by `,`, a possibly empty digit run and `}`. `comma` is true iff the `,` form was read. `min` is the whole digit run after `{`. The max digits are empty without a comma, and the text round-trips. |
| Characters.ParseCharacter | lib/grammar.macro.js:197-206 | After `\`, it succeeds iff an escape sequence parses in the span, and the node is then exactly that escape sequence, ending where it ends. Otherwise it reads one character that is not CR, LF, tab or the active closer. It fails at the end of the input. |
| Characters.ParseCharacterSet | lib/grammar.macro.js:245-292 | `.` is the any-set. `\d`, `\s`, `\w` and their upper-case forms succeed, with `negate` true iff the letter is upper case. `\p` and `\P` fail. |
| Characters.ParseClassAtom | lib/grammar.macro.js:225-230 | The class dispatch, first match wins. `\` with `d`, `s`, `w` or `p` in either case gives the character set, succeeding iff it parses. `\g` gives the gap. Anything else gives a `Character` read in the class span, succeeding iff it parses. It is never a range before the `-` step. It fails at `]` or at the end of the input, and it is well formed and round-trips. |
| Characters.ParseClassElement | lib/grammar.macro.js:225-235 | A class element parses exactly when its atom does. The result is well formed and round-trips. `ClassElementRange` states when it is a range. |
| Characters.ClassElementRange | lib/grammar.macro.js:225-243 | The element is a range iff its atom is a `Character` followed by `-` and another `Character`. Then the first `Character` is the range's `min` and the second its `max`; otherwise the atom stands alone. |
| Characters.SetOrGapNeverRangeMin | lib/grammar.macro.js:225-240 | A character set or a gap is the whole class element, even when `-` follows it; it never becomes a range's `min`. |
| Characters.ParseClassElements | lib/grammar.macro.js:218-220 | The element loop stops only at `]` or at the end of the input. It is empty when it starts there and non-empty otherwise. Its first element is the one `ParseClassElement` reads. When it fails, some position at or after its start, before a `]`, holds no class element; `ClassElementsFailure` names the position it reaches. Its elements are well formed and round-trip. |
| Characters.ClassElementsStep | lib/grammar.macro.js:218-220 | After its first element, the class element loop goes on with exactly the loop read where that element ends. Before a `]`, the loop parses exactly when that element parses and the loop read after it parses. |
| Characters.ClassElementsAcceptance | lib/grammar.macro.js:218-220 | The class element loop succeeds and ends at `k` exactly when it reaches `k` and `k` is the end of the input or a `]`. Reaching means that every element read before `k` starts before a `]`, parses, and ends no later than `k`. |
| Characters.ClassElementsFailure | lib/grammar.macro.js:218-220 | The class element loop fails exactly when it reaches a position that is not the end or a `]` and no class element parses there. |
| Characters.ClassBodyStart | lib/grammar.macro.js:212-216 | The class elements start two characters after `[` exactly when a `^` follows the `[`, and one character after it otherwise. |
| Characters.ParseCharacterClass | lib/grammar.macro.js:208-223 | A class starts with `[`, and `negate` is true iff a `^` follows. It succeeds exactly when the element loop after `[` or `[^` parses and stops at a `]` rather than at the end of the input. It then holds those elements and ends just after the `]`. The node is well formed and round-trips. |
| Assertions.ParseAssertion | lib/grammar.macro.js:160-188 | `^` and `$` give the input assertions. `\b` and `\B` give a word boundary with `negate` true iff the letter is `B`. Anything else fails. |
| Assertions.ParseGap | lib/grammar.macro.js:190-195 | Succeeds exactly on `\g` and consumes those two characters. |
| Escapes.ParseEscapeSequence | lib/grammar.macro.js:341-360 | After `\`, the first applicable rule decides. A fixed code `\ / n r t 0` is read in every span. Next comes a special character of the span, then `u` or `x` starting an escape code. Anything else fails. In an unknown span, only the fixed codes are accepted. The text round-trips. |
| Escapes.ParseEscapeCode | lib/grammar.macro.js:362-377 | `x` needs exactly two digits. `u` needs four digits, or a braced digit run closed by `}`. Any other letter fails. The text round-trips. |
| Escapes.Escapable | lib/grammar.macro.js:26-33 | The `escapables` table has an entry exactly for `n`, `r`, `t` and `0`, and each entry is a control character below the space. |
| Escapes.LookupEscapable | lib/grammar.macro.js:44 | `escapables.get(text) \|\| text` keeps the length. It changes the text exactly when the text is a single character that has a table entry. |
| Escapes.Cooked | lib/grammar.macro.js:26-52 | `n`, `r`, `t` and `0` cook to their control characters, and any other simple code cooks to itself. A `u`/`x` code cooks to a decimal numeral with no leading zero (only zero itself is `0`) whose value is its digits read in base 16, and to `NaN` with no digits. Any other code type is an error. |
| Escapes.CookedAsWritten | lib/grammar.macro.js:35-44 | As written, a simple code cooks as in `Cooked`, but a `u`/`x` code cooks to its raw source text. |
| GrammarProperties.SigilAlwaysQuantifies | lib/grammar.macro.js:140-142 | A `*`, `+` or `?` after an element always makes it a one-character quantifier of that element. |
| GrammarProperties.PlainElement | lib/grammar.macro.js:140-143 | Without a following `*`, `+`, `?` or `{`, the element is exactly the dispatched atom, so the element count does not grow. |
| GrammarProperties.LiteralAtom | lib/grammar.macro.js:131-138 | A character that leads no other production, and is not CR, LF, tab or the closer, is one literal `Character`. |
| GrammarProperties.QuantifierNotStackable | lib/grammar.macro.js:128-129 | A sigil right after a quantified element makes the whole element sequence fail (`a+*`). |
| GrammarProperties.DashBeforeCloserIsLiteral | lib/grammar.macro.js:232-243 | A `-` followed by `]` never forms a range, and the element before it stays alone. |
| GrammarProperties.PlainRange | lib/grammar.macro.js:225-243 | For any two plain characters `x` and `y`, including `-`, the class body `x-y]` is exactly one range from `x` to `y`, and the element loop ends at the `]`. |
| GrammarProperties.ClassEscapeAcceptedInPattern | lib/grammar.macro.js:65-73 | Every escape the class span accepts is accepted by the pattern span with the same result. |
| GrammarProperties.ClassSpecialEscapeInPattern | lib/grammar.macro.js:67-69 | Each special character of the class span (`]` and `\`) is also special in the pattern span, so its escape reads the same there. |
| GrammarProperties.ParsedEscapesCook | lib/grammar.macro.js:35-52 | Every accepted escape has a cooked value. For a `u`/`x` code with digits, that value is the base-16 reading of the digits, written in decimal. |
| GrammarProperties.AsWrittenCookingKeepsRawText | lib/grammar.macro.js:38-44 | For every accepted `u`/`x` escape, cooking as written yields the code's raw text, which always differs from the intended decimal value. |
| GrammarProperties.SingleElementPattern | lib/grammar.macro.js:76-126 | A literal `/e/` whose body is one element parses to that element alone, with no flags. |
| GrammarProperties.SingleClassPattern | lib/grammar.macro.js:128-143 | A literal `/[…]/` whose body is one class parses to that class alone. |
| GrammarProperties.SingleLiteral | lib/grammar.macro.js:197-206 | `/c/` for an ordinary character parses to one literal `Character`. |
| Scenarios.EmptyPatternScenario | test/grammar.test.js:29-46 | `//` is one alternative with no elements and six false flags. |
| Scenarios.AlternationScenario | test/grammar.test.js:89-113 | `/1\|2/` is two alternatives of one character each, with one separator. |
| Scenarios.QuantifiedCharacterScenario | test/grammar.test.js:115-138 | `/2+/` is one quantifier element holding `2`, with `min` 1 and infinite `max`. |
| Scenarios.QuantifiedThenLiteralScenario | lib/grammar.macro.js:121-143 | `/a*b/` is one alternative of two elements: a quantifier holding `a` with null `min` and infinite `max`, then the literal `b`. |
| Scenarios.LoneDashClassScenario | test/grammar.test.js:140-165 | `[-]` is a class holding one `-` character. |
| Scenarios.TwoDashClassScenario | test/grammar.test.js:167-193 | `[--]` is a class holding two `-` characters, not a range. |
| Scenarios.ThreeDashClassScenario | test/grammar.test.js:195-226 | `[---]` is a class holding one range from `-` to `-`. |
| Scenarios.FlagsScenario | test/grammar.test.js:251-273 | `//mi` has tokens `m`, `i`, with `ignoreCase` and `multiline` true and the rest false. |
| Scenarios.RepeatedFlagScenario | lib/grammar.macro.js:92 | `//gg` is rejected. |
| Scenarios.NegatedWordSetScenario | test/grammar.test.js:275-297 | `/\W/` is one word set with `negate` true. |
| Scenarios.GapScenario | test/grammar.test.js:299-321 | `/\g/` is one gap. |
| Scenarios.EscapedLessThanScenario | test/grammar.test.js:323-348 | `/\</` is one escaped character with code `<`. |
| Scenarios.EscapedLessThanOutsideClasses | lib/grammar.macro.js:65-73 | `\<` cooks to `<` and `\t` to a tab, but the class span rejects `\<`. |
| Scenarios.QuantifiedClassScenario | test/grammar.test.js:350-389 | `/[ \t]+/` is one quantifier holding a class of a space and an escaped tab. |
| Scenarios.DigitSetBeforeDashScenario | lib/grammar.macro.js:225-243 | `/[\d-z]/` is a class of three elements: the digit set, a literal `-` and a literal `z`. |
| Scenarios.LetterRangeScenario | lib/grammar.macro.js:237-243 | `/[a-z]/` is a class holding one range from `a` to `z`. |
| Scenarios.ExactBracesScenario | lib/grammar.macro.js:313-333 | `{2}` binds `min` 2 and a null `max`. |
| Scenarios.OpenBracesScenario | lib/grammar.macro.js:317-333 | `{2,}` binds `min` 2 and a null `max`. |
| Scenarios.ZeroMinBracesScenario | lib/grammar.macro.js:324-333 | `{0,3}` binds a null `min` and `max` 3. |
| Scenarios.MissingMinBracesScenario | lib/grammar.macro.js:315 | `{,3}` is not a quantifier. |
| Scenarios.StackedSigilsScenario | lib/grammar.macro.js:129 | `/a+*/` is rejected. |
| Scenarios.LeadingSigilScenario | lib/grammar.macro.js:129 | `/+/` is rejected. |
| Scenarios.UnclosedGroupScenario | lib/grammar.macro.js:145-151 | `/(?:a/` is rejected: the group body runs to the end of the input without a `)`. |
| Scenarios.UnicodeEscapeScenario | lib/grammar.macro.js:35-52 | `\u0041` parses as a four-digit `u` code. The intended cooked value is `65`; the as-written value is `u0041`. |

## Left out

- The VM instruction protocol (`eat`, `eatMatch`, `match`, `guard`, `holdForMatch`,
  `bindAttribute`, `fail`, generator yielding). The model states their effect as string
  consumption and choice, as described above.
- `Any`, `Keyword` and `Punctuator`. They are injected from a shared grammar that is not
  part of this model. Keywords and punctuators appear only as the characters they match.
- Balance metadata (`balanced`, `balancedSpan`, `balancer`, `openSpan`, `closeSpan`).
  It is reduced to the active closer, which ends loops and is never read as a
  `Character`. Only the innermost closer is tracked, so a `/` inside a group is an
  ordinary character.
- `CapturingGroup`: no dispatch case reaches it.
- `Digits` and `Digit`: no production uses them. `UnsignedInteger` is a digit run
  inside its users (`Lexical.DigitRunEnd`).
- Error kinds and messages: every failure is `None`.
- `parseInt` leniency. The grammar hands `parseInt` only strings of `0`–`9`, and the
  model reads them as unbounded integers. `NaN` appears only as the text of an empty
  braced code. Null and `Infinity` bounds are the `Bound` datatype.
- Syntax.MinAttribute: reads brace digits exactly, while `parseInt` returns a double.
  Above 2^53 the source's value is rounded (`9007199254740993` reads as
  `9007199254740992`). A run of 309 or more nines gives `Infinity`, which line 332 binds.
  So "never infinite" holds for the model, not for such inputs.
- Syntax.MaxAttribute: the same double rounding and overflow to `Infinity` apply to the
  max digits, and line 333 binds them too.
- Escapes.Cooked: the `u`/`x` value is an exact integer rendered in plain decimal digits.
  In the source, `parseInt(…, 16)` rounds above 2^53, and `toString(10)` on line 51 writes
  values of 1e21 and above in exponent form (`1e+21`).
- Lexical.DecimalValue: an exact integer. `parseInt(…, 10)` returns a double, which is
  rounded above 2^53 and becomes `Infinity` for 309 or more digits.
- Lexical.HexValue: an exact integer. `parseInt(…, 16)` returns a double in the same way.
- Lexical.NatToDecimal: always plain digits. JavaScript's `toString(10)` switches to
  exponent form at 1e21.
- UTF-16 code units. A Dafny `char` is a Unicode scalar value, while the source matches
  over a JavaScript string of UTF-16 code units. An astral character (outside the Basic
  Multilingual Plane) is one `Literal` in the model, where the source sees two code units.
- The `span` and `ctx` arguments of `getCooked`. The span does not affect the value.
  Source text is read from the node's own tokens.
- Template-tag interpolation, CSTML printing and slot names in the printed trees. This
  includes the interpolated-flags case of `test/grammar.test.js:391-413`.
- Characters.ClassElementRange: the grammar text does not say what the VM does when
  `holdForMatch` is reached after a character set or a gap, whose binding cannot be
  moved into the `<*Character />` slot. The model reads this as the range not matching,
  like a `-` before `]`, so the set or gap stays alone.
- Characters.ParseCharacterClass: it does not state separately that the character at
  `next - 1` is `]`. That follows from the round trip, since the flattened class ends
  in `]`.

## Findings

| source | as written | input that shows it | evidently intended | confidence | as-written member | corrected member |
|---|---|---|---|---|---|---|
| lib/grammar.macro.js:38 | `getCooked` reads the code's type from the slot `typeToken`, but `EscapeCode` stores it in `type` (lines 364, 372). So the type is always missing, and every code goes through the `escapables` branch with its whole source text. | `\u0041` cooks to `u0041` | A `u`/`x` code cooks to the decimal value of its digits read in base 16: `\u0041` gives `65`. | medium, not executed | Escapes.CookedAsWritten (see GrammarProperties.AsWrittenCookingKeepsRawText, Scenarios.UnicodeEscapeScenario) | Escapes.Cooked (see GrammarProperties.ParsedEscapesCook) |

=== FILE: assertions.dfy ===
/** `Assertion` (`^`, `$`, `\b`, `\B`) and `Gap` (`\g`). */
module Assertions {
  import opened Wrappers
  import opened Syntax

  /** The word-boundary escapes `\b` and `\B`. */
  predicate EscapesBoundary(s: seq<char>, i: nat) {
    i + 1 < |s| && s[i] == '\\' && (s[i + 1] == 'b' || s[i + 1] == 'B')
  }

  /** `Assertion` at `i`: start of input, end of input, or a word boundary whose
      `negate` is true exactly for the upper-case `\B`. */
  function ParseAssertion(s: seq<char>, i: nat): (r: Option<Parsed<Element>>)
    requires i <= |s|
    ensures r.Some? ==> i < r.value.next <= |s| && FlattenElement(r.value.node) == s[i..(r.value.next)]
    ensures r.Some? ==> WellFormedElement(r.value.node)
    ensures r.Some? ==> r.value.node.StartOfInputAssertion? || r.value.node.EndOfInputAssertion? ||
                        r.value.node.WordBoundaryAssertion?
    ensures i < |s| && s[i] == '^' ==> r == Some(Parsed(StartOfInputAssertion, i + 1))
    ensures i < |s| && s[i] == '$' ==> r == Some(Parsed(EndOfInputAssertion, i + 1))
    ensures i + 1 < |s| && s[i] == '\\' && (s[i + 1] == 'b' || s[i + 1] == 'B') ==>
              r.Some? && r.value.node.WordBoundaryAssertion? && (r.value.node.negate <==> s[i + 1] == 'B')
    ensures (i == |s| || (s[i] != '^' && s[i] != '$' && s[i] != '\\')) ==> r.None?
  {
    if i < |s| && s[i] == '^' then Some(Parsed(StartOfInputAssertion, i + 1))
    else if i < |s| && s[i] == '$' then Some(Parsed(EndOfInputAssertion, i + 1))
    else if i + 1 < |s| && s[i] == '\\' && (s[i + 1] == 'b' || s[i + 1] == 'B') then
      assert s[i..i + 2] == ['\\', s[i + 1]];
      Some(Parsed(WordBoundaryAssertion(s[i + 1], s[i + 1] == 'B'), i + 2))
    else None
  }

  /** `Gap` at `i`: the two characters `\g`. */
  function ParseGap(s: seq<char>, i: nat): (r: Option<Parsed<Element>>)
    requires i <= |s|
    ensures r.Some? <==> i + 1 < |s| && s[i] == '\\' && s[i + 1] == 'g'
    ensures r.Some? ==> r.value == Parsed(Gap, i + 2) && FlattenElement(Gap) == s[i..i + 2]
  {
    if i + 1 < |s| && s[i] == '\\' && s[i + 1] == 'g' then
      assert s[i..i + 2] == "\\g";
      Some(Parsed(Gap, i + 2))
    else None
  }
}

=== FILE: characters.dfy ===
/** `Character`, `CharacterSet`, `CharacterClass`, `CharacterClassElement` and
    `CharacterClassRange`. `closer` is the closing delimiter of the innermost open
    balanced region: it is never consumed as a `Character`. */
module Characters {
  import opened Wrappers
  import opened Syntax
  import opened Escapes

  /** The delimiter that closes a character class. */
  const ClassCloser: char := ']'

  /** `Character` at `i`: an escape sequence read in `span` after a `\`, otherwise any
      one character except CR, LF, tab and the active closer. */
  function ParseCharacter(s: seq<char>, i: nat, closer: char, span: Span): (res: Option<Parsed<Character>>)
    requires i <= |s|
    ensures res.Some? ==> i < res.value.next <= |s| && FlattenCharacter(res.value.node) == s[i..(res.value.next)]
    ensures res.Some? && res.value.node.Literal? ==>
              res.value.next == i + 1 && !IsLineControl(s[i]) && s[i] != '\\' && s[i] != closer
    ensures i < |s| && s[i] == '\\' ==>
              (res.Some? <==> ParseEscapeSequence(s, i, span).Some?) &&
              (res.Some? ==> res.value == Parsed(Escaped(ParseEscapeSequence(s, i, span).value.node),
                                                 ParseEscapeSequence(s, i, span).value.next))
    ensures i < |s| && !IsLineControl(s[i]) && s[i] != '\\' && s[i] != closer ==> res == Some(Parsed(Literal(s[i]), i + 1))
    ensures i == |s| || (s[i] == closer && closer != '\\') ==> res.None?
  {
    if i < |s| && s[i] == '\\' then
      match ParseEscapeSequence(s, i, span)
      case None => None
      case Some(Parsed(e, j)) => Some(Parsed(Escaped(e), j))
    else if i < |s| && !IsLineControl(s[i]) && s[i] != closer then
      Some(Parsed(Literal(s[i]), i + 1))
    else None
  }

  /** `CharacterSet` at `i`: `.`, or `\` with `d`, `s`, `w` (negate false) or `D`, `S`, `W`
      (negate true). A `\p` reaches this production but has no case in it and fails. */
  function ParseCharacterSet(s: seq<char>, i: nat): (r: Option<Parsed<CharacterSet>>)
    requires i <= |s|
    ensures r.Some? ==> i < r.value.next <= |s| && FlattenCharacterSet(r.value.node) == s[i..(r.value.next)]
    ensures r.Some? ==> WellFormedCharacterSet(r.value.node)
    ensures i < |s| && s[i] == '.' ==> r == Some(Parsed(AnyCharacterSet, i + 1))
    ensures r.Some? && !r.value.node.AnyCharacterSet? ==>
              s[i] == '\\' && r.value.node.letter == s[i + 1] && r.value.next == i + 2 &&
              (r.value.node.negate <==> s[i + 1] == 'D' || s[i + 1] == 'S' || s[i + 1] == 'W')
    ensures i + 1 < |s| && s[i] == '\\' && IsSetLetter(s[i + 1]) && s[i + 1] != 'p' && s[i + 1] != 'P' ==> r.Some?
    ensures i + 1 < |s| && s[i] == '\\' && (s[i + 1] == 'p' || s[i + 1] == 'P') ==> r.None?
  {
    if i < |s| && s[i] == '.' then Some(Parsed(AnyCharacterSet, i + 1))
    else if i + 1 < |s| && s[i] == '\\' then
      var c := s[i + 1];
      assert s[i..i + 2] == ['\\', c];
      if c == 'd' || c == 'D' then Some(Parsed(DigitCharacterSet(c, c == 'D'), i + 2))
      else if c == 's' || c == 'S' then Some(Parsed(SpaceCharacterSet(c, c == 'S'), i + 2))
      else if c == 'w' || c == 'W' then Some(Parsed(WordCharacterSet(c, c == 'W'), i + 2))
      else None
    else None
  }

  /** CR, LF and tab, which are never a `Character`. */
  predicate IsLineControl(c: char) {
    c == '\r' || c == '\n' || c == '\t'
  }

  /** The letters that select a `CharacterSet` after `\`: `d`, `s`, `w`, `p` in either case. */
  predicate IsSetLetter(c: char) {
    c == 'd' || c == 's' || c == 'w' || c == 'p' || c == 'D' || c == 'S' || c == 'W' || c == 'P'
  }

  /** `\` followed by a letter that selects a `CharacterSet`. */
  predicate EscapesSetLetter(s: seq<char>, i: nat) {
    i + 1 < |s| && s[i] == '\\' && IsSetLetter(s[i + 1])
  }

  /** The gap `\g`. */
  predicate EscapesGap(s: seq<char>, i: nat) {
    i + 1 < |s| && s[i] == '\\' && s[i + 1] == 'g'
  }

  /** The dispatch of `CharacterClassElement`, first match wins: a character set after
      `\` with `d`, `s`, `w`, `p` in either case; the gap `\g`; otherwise a `Character`. */
  function ParseClassAtom(s: seq<char>, i: nat): (r: Option<Parsed<ClassElement>>)
    requires i <= |s|
    ensures r.Some? ==> i < r.value.next <= |s| && FlattenClassElement(r.value.node) == s[i..(r.value.next)]
    ensures r.Some? ==> !r.value.node.CharacterClassRange? && WellFormedClassElement(r.value.node)
    ensures i == |s| || s[i] == ClassCloser ==> r.None?
    ensures EscapesSetLetter(s, i) ==>
              (r.Some? <==> ParseCharacterSet(s, i).Some?) &&
              (r.Some? ==> r.value == Parsed(SetElement(ParseCharacterSet(s, i).value.node),
                                             ParseCharacterSet(s, i).value.next))
    ensures EscapesGap(s, i) ==> r == Some(Parsed(GapElement, i + 2))
    ensures !EscapesSetLetter(s, i) && !EscapesGap(s, i) ==>
              (r.Some? <==> ParseCharacter(s, i, ClassCloser, CharacterClassSpan).Some?) &&
              (r.Some? ==> r.value == Parsed(CharElement(ParseCharacter(s, i, ClassCloser, CharacterClassSpan).value.node),
                                             ParseCharacter(s, i, ClassCloser, CharacterClassSpan).value.next))
  {
    if EscapesSetLetter(s, i) then
      match ParseCharacterSet(s, i)
      case None => None
      case Some(Parsed(cs, j)) => Some(Parsed(SetElement(cs), j))
    else if EscapesGap(s, i) then
      assert s[i..i + 2] == "\\g";
      Some(Parsed(GapElement, i + 2))
    else
      match ParseCharacter(s, i, ClassCloser, CharacterClassSpan)
      case None => None
      case Some(Parsed(ch, j)) => Some(Parsed(CharElement(ch), j))
  }

  /** `CharacterClassElement` at `i`. When the element is a `Character` followed by `-`
      and a `Character` can be read after that `-`, the element becomes the `min` of a
      `CharacterClassRange`; otherwise the element stands alone and the `-` is left
      for the next element. A character set or a gap is never a range's `min`. */
  function ParseClassElement(s: seq<char>, i: nat): (r: Option<Parsed<ClassElement>>)
    requires i <= |s|
    ensures r.Some? ==> i < r.value.next <= |s| && FlattenClassElement(r.value.node) == s[i..(r.value.next)]
    ensures r.Some? ==> WellFormedClassElement(r.value.node)
    ensures r.Some? <==> ParseClassAtom(s, i).Some?
  {
    var atom := ParseClassAtom(s, i);
    if atom.None? then None
    else
      var j := atom.value.next;
      match atom.value.node
      case CharElement(lo) =>
        if j < |s| && s[j] == '-' then
          var hi := ParseCharacter(s, j + 1, ClassCloser, CharacterClassSpan);
          if hi.Some? then
            RangeText(s, i, j, hi.value.next, lo, hi.value.node);
            Some(Parsed(CharacterClassRange(lo, hi.value.node), hi.value.next))
          else atom
        else atom
      case _ => atom
  }

  /** The element at `i` is a range exactly when its atom is a `Character` followed by
      `-` and a `Character`; that first `Character` is then the range's `min`, and
      otherwise the element is the atom itself. */
  lemma ClassElementRange(s: seq<char>, i: nat)
    requires i <= |s| && ParseClassAtom(s, i).Some?
    ensures (var atom := ParseClassAtom(s, i).value;
             var r := ParseClassElement(s, i).value;
             (r.node.CharacterClassRange? <==>
                atom.node.CharElement? &&
                atom.next < |s| && s[atom.next] == '-' &&
                ParseCharacter(s, atom.next + 1, ClassCloser, CharacterClassSpan).Some?) &&
             (r.node.CharacterClassRange? ==>
                CharElement(r.node.min) == atom.node &&
                Some(Parsed(r.node.max, r.next)) == ParseCharacter(s, atom.next + 1, ClassCloser, CharacterClassSpan)) &&
             (!r.node.CharacterClassRange? ==> r == atom))
  {
  }

  /** A character set or a gap followed by `-` stays a lone element, and the `-` is
      read as the next element of the class. */
  lemma SetOrGapNeverRangeMin(s: seq<char>, i: nat)
    requires i <= |s| && (EscapesSetLetter(s, i) || EscapesGap(s, i))
    ensures ParseClassElement(s, i) == ParseClassAtom(s, i)
    ensures ParseClassElement(s, i).Some? ==> !ParseClassElement(s, i).value.node.CharacterClassRange?
  {
  }

  lemma RangeText(s: seq<char>, i: nat, j: nat, k: nat, lo: Character, hi: Character)
    requires i < j < k <= |s| && s[j] == '-'
    requires FlattenCharacter(lo) == s[i..j] && FlattenCharacter(hi) == s[j + 1..k]
    ensures FlattenClassElement(CharacterClassRange(lo, hi)) == s[i..k]
  {
    assert s[i..k] == s[i..j] + [s[j]] + s[j + 1..k];
  }

  /** The element loop of a class: it stops at the end of the input or at `]`. Each
      element is the one `ParseClassElement` reads where the previous one ended, and the
      loop fails only where some element fails to parse; `ClassElementsFailure` says
      which such position it reaches. */
  function ParseClassElements(s: seq<char>, i: nat): (r: Option<Parsed<seq<ClassElement>>>)
    requires i <= |s|
    ensures r.Some? ==> i <= r.value.next <= |s| && FlattenClassElements(r.value.node) == s[i..(r.value.next)]
    ensures r.Some? ==> r.value.next == |s| || s[r.value.next] == ClassCloser
    ensures r.Some? ==> forall k {:trigger WellFormedClassElement(r.value.node[k])} :: 0 <= k < |r.value.node| ==> WellFormedClassElement(r.value.node[k])
    ensures i == |s| || s[i] == ClassCloser ==> r == Some(Parsed([], i))
    ensures r.Some? && i < |s| && s[i] != ClassCloser ==> |r.value.node| > 0
    ensures r.Some? && |r.value.node| > 0 ==>
              ParseClassElement(s, i).Some? && r.value.node[0] == ParseClassElement(s, i).value.node
    ensures r.None? ==> exists j :: i <= j < |s| && s[j] != ClassCloser && ParseClassElement(s, j).None?
    decreases |s| - i
  {
    if i == |s| || s[i] == ClassCloser then Some(Parsed([], i))
    else
      var first := ParseClassElement(s, i);
      if first.None? then None
      else
        var rest := ParseClassElements(s, first.value.next);
        if rest.None? then None
        else
          var e, es := first.value.node, rest.value.node;
          ClassElementsText(s, i, first.value.next, rest.value.next, e, es);
          assert ([e] + es)[1..] == es;
          Some(Parsed([e] + es, rest.value.next))
  }

  /** After its first element, the loop continues exactly where that element ended:
      the rest of the list is the loop's result from there. Before a `]`, the loop
      succeeds exactly when its first element and that rest do. */
  lemma ClassElementsStep(s: seq<char>, i: nat)
    requires i <= |s|
    ensures (var r := ParseClassElements(s, i);
             r.Some? && |r.value.node| > 0 ==>
               ParseClassElement(s, i).Some? &&
               ParseClassElements(s, ParseClassElement(s, i).value.next) ==
                 Some(Parsed(r.value.node[1..], r.value.next)))
    ensures i < |s| && s[i] != ClassCloser ==>
              (ParseClassElements(s, i).Some? <==>
                 ParseClassElement(s, i).Some? &&
                 ParseClassElements(s, ParseClassElement(s, i).value.next).Some?)
  {
  }

  /** The class element loop started at `i` reaches `j`: each element it reads before
      `j` starts before a `]`, parses, and ends no later than `j`. */
  predicate ClassElementsReach(s: seq<char>, i: nat, j: nat)
    requires i <= j <= |s|
    decreases j - i
  {
    i == j ||
    (s[i] != ClassCloser && ParseClassElement(s, i).Some? &&
     ParseClassElement(s, i).value.next <= j &&
     ClassElementsReach(s, ParseClassElement(s, i).value.next, j))
  }

  /** The class element loop succeeds and ends at `k` exactly when it reaches `k` and `k`
      is the end of the input or a `]`. */
  lemma {:induction false} ClassElementsAcceptance(s: seq<char>, i: nat, k: nat)
    requires i <= k <= |s|
    ensures (ParseClassElements(s, i).Some? && ParseClassElements(s, i).value.next == k) <==>
            ClassElementsReach(s, i, k) && (k == |s| || s[k] == ClassCloser)
    decreases k - i
  {
    if i < k && s[i] != ClassCloser && ParseClassElement(s, i).Some? {
      var n := ParseClassElement(s, i).value.next;
      if n <= k {
        ClassElementsAcceptance(s, n, k);
      }
    }
  }

  /** The class element loop fails exactly when it reaches a position before a `]` where
      no element parses. */
  lemma ClassElementsFailure(s: seq<char>, i: nat)
    requires i <= |s|
    ensures ParseClassElements(s, i).None? <==>
            exists j :: i <= j < |s| && ClassElementsReach(s, i, j) &&
                        s[j] != ClassCloser && ParseClassElement(s, j).None?
  {
    if ParseClassElements(s, i).None? {
      var j := ClassElementsFailureWitness(s, i);
    }
    forall j | i <= j < |s| && ClassElementsReach(s, i, j) &&
               s[j] != ClassCloser && ParseClassElement(s, j).None?
      ensures ParseClassElements(s, i).None?
    {
      ClassElementsReachFailure(s, i, j);
    }
  }

  lemma {:induction false} ClassElementsFailureWitness(s: seq<char>, i: nat) returns (j: nat)
    requires i <= |s| && ParseClassElements(s, i).None?
    ensures i <= j < |s| && ClassElementsReach(s, i, j) &&
            s[j] != ClassCloser && ParseClassElement(s, j).None?
    decreases |s| - i
  {
    var e := ParseClassElement(s, i);
    if e.None? {
      j := i;
    } else {
      j := ClassElementsFailureWitness(s, e.value.next);
      assert ClassElementsReach(s, i, j);
    }
  }

  lemma {:induction false} ClassElementsReachFailure(s: seq<char>, i: nat, j: nat)
    requires i <= j < |s| && ClassElementsReach(s, i, j)
    requires s[j] != ClassCloser && ParseClassElement(s, j).None?
    ensures ParseClassElements(s, i).None?
    decreases j - i
  {
    if i < j {
      ClassElementsReachFailure(s, ParseClassElement(s, i).value.next, j);
    }
  }

  lemma ClassElementsText(s: seq<char>, i: nat, j: nat, k: nat, e: ClassElement, es: seq<ClassElement>)
    requires i <= j <= k <= |s|
    requires FlattenClassElement(e) == s[i..j] && FlattenClassElements(es) == s[j..k]
    requires WellFormedClassElement(e) && forall n :: 0 <= n < |es| ==> WellFormedClassElement(es[n])
    ensures FlattenClassElements([e] + es) == s[i..k]
    ensures forall n :: 0 <= n < |[e] + es| ==> WellFormedClassElement(([e] + es)[n])
  {
    assert ([e] + es)[1..] == es;
    assert s[i..k] == s[i..j] + s[j..k];
  }

  /** Where the elements of a class opened at `i` begin: after the `[` and the `^`
      that negates it, when there is one. */
  function ClassBodyStart(s: seq<char>, i: nat): (start: nat)
    requires i < |s|
    ensures i < start <= i + 2 && start <= |s|
    ensures start == i + 2 <==> i + 1 < |s| && s[i + 1] == '^'
  {
    if i + 1 < |s| && s[i + 1] == '^' then i + 2 else i + 1
  }

  /** `CharacterClass` at `i`: `[`, an optional `^` that sets `negate`, the elements read
      in the class span, and the closing `]`. It succeeds exactly when the element loop
      succeeds and stops at a `]` rather than at the end of the input. */
  function ParseCharacterClass(s: seq<char>, i: nat): (r: Option<Parsed<Element>>)
    requires i <= |s|
    ensures r.Some? ==> i + 2 <= r.value.next <= |s| && FlattenElement(r.value.node) == s[i..(r.value.next)]
    ensures r.Some? ==> r.value.node.CharacterClass? && WellFormedElement(r.value.node)
    ensures r.Some? ==> s[i] == '[' && (r.value.node.negate <==> s[i + 1] == '^')
    ensures i == |s| || s[i] != '[' ==> r.None?
    ensures i < |s| && s[i] == '[' ==>
              (r.Some? <==> ParseClassElements(s, ClassBodyStart(s, i)).Some? &&
                            ParseClassElements(s, ClassBodyStart(s, i)).value.next < |s|)
    ensures r.Some? ==>
              r.value.node.elements == ParseClassElements(s, ClassBodyStart(s, i)).value.node &&
              r.value.next == ParseClassElements(s, ClassBodyStart(s, i)).value.next + 1
  {
    if i < |s| && s[i] == '[' then
      var start := ClassBodyStart(s, i);
      var negate := start == i + 2;
      var body := ParseClassElements(s, start);
      if body.Some? && body.value.next < |s| then
        var j := body.value.next;
        assert s[j] == ClassCloser;
        ClassText(s, i, start, j, negate, body.value.node);
        Some(Parsed(CharacterClass(negate, body.value.node), j + 1))
      else None
    else None
  }

  lemma ClassText(s: seq<char>, i: nat, start: nat, j: nat, negate: bool, es: seq<ClassElement>)
    requires i < start <= j < |s| && s[i] == '[' && s[j] == ClassCloser
    requires start == (if negate then i + 2 else i + 1)
    requires negate ==> s[i + 1] == '^'
    requires FlattenClassElements(es) == s[start..j]
    ensures FlattenElement(CharacterClass(negate, es)) == s[i..j + 1]
  {
    var pre := if negate then "[^" else "[";
    assert s[i..start] == pre by {
      if negate {
        assert s[i..start] == [s[i], s[i + 1]];
      } else {
        assert s[i..start] == [s[i]];
      }
    }
    assert s[j..j + 1] == [s[j]];
    assert s[i..j + 1] == s[i..start] + s[start..j] + s[j..j + 1];
  }
}

=== FILE: escapes.dfy ===
/** `EscapeSequence`, `EscapeCode` and the cooked value of an escape (`getCooked`). */
module Escapes {
  import opened Wrappers
  import opened Lexical
  import opened Syntax

  /** The balanced span an escape is read in. Only `PatternSpan` and
      `CharacterClassSpan` have a special-character set. */
  datatype Span = PatternSpan | CharacterClassSpan | EscapeSpan

  /** Codes accepted after `\` whatever the span. */
  predicate IsFixedCode(c: char) {
    c == '\\' || c == '/' || c == 'n' || c == 'r' || c == 't' || c == '0'
  }

  /** `getSpecialPattern` has a pattern for the span; for any other span it raises the
      unknown-span error. */
  predicate HasSpecialPattern(span: Span) {
    span.PatternSpan? || span.CharacterClassSpan?
  }

  /** `c` matches the special pattern of `span`: it escapes to itself there. */
  predicate IsSpecialCharacter(span: Span, c: char)
    requires HasSpecialPattern(span)
  {
    match span
    case PatternSpan =>
      c == '*' || c == '+' || c == '{' || c == '}' || c == '[' || c == ']' || c == '(' || c == ')' ||
      c == '.' || c == '^' || c == '$' || c == '|' || c == '\n' || c == '\\' || c == '<' || c == '>'
    case CharacterClassSpan => c == ']' || c == '\\'
  }

  /** `EscapeCode` at `i`: `u{digits}`, `u` and four digits, or `x` and two digits. */
  function ParseEscapeCode(s: seq<char>, i: nat): (r: Option<Parsed<Code>>)
    requires i <= |s|
    ensures r.Some? ==> i < r.value.next <= |s| && FlattenCode(r.value.node) == s[i..(r.value.next)]
    ensures r.Some? ==> r.value.node.EscapeCode? && r.value.node.kind == s[i] &&
                        (s[i] == 'u' || s[i] == 'x') && AllDigits(r.value.node.digits)
    ensures r.Some? && s[i] == 'x' ==> !r.value.node.braced && |r.value.node.digits| == 2
    ensures r.Some? && !r.value.node.braced && s[i] == 'u' ==> |r.value.node.digits| == 4
    ensures i + 3 <= |s| && s[i] == 'x' && IsDigit(s[i + 1]) && IsDigit(s[i + 2]) ==> r.Some?
    ensures i + 1 < |s| && s[i] == 'u' && s[i + 1] != '{' ==>
              (r.Some? <==> i + 5 <= |s| && AllDigits(s[i + 1..i + 5]))
    ensures i + 1 < |s| && s[i] == 'u' && s[i + 1] == '{' ==>
              (r.Some? <==> DigitRunEnd(s, i + 2) < |s| && s[DigitRunEnd(s, i + 2)] == '}')
    ensures i < |s| && s[i] != 'u' && s[i] != 'x' ==> r.None?
  {
    if i < |s| && s[i] == 'u' then
      if i + 1 < |s| && s[i + 1] == '{' then
        var j := DigitRunEnd(s, i + 2);
        if j < |s| && s[j] == '}' then
          assert s[i..j + 1] == ['u'] + "{" + s[i + 2..j] + "}";
          Some(Parsed(EscapeCode('u', true, s[i + 2..j]), j + 1))
        else None
      else if i + 5 <= |s| && AllDigits(s[i + 1..i + 5]) then
        assert s[i..i + 5] == ['u'] + s[i + 1..i + 5];
        Some(Parsed(EscapeCode('u', false, s[i + 1..i + 5]), i + 5))
      else None
    else if i < |s| && s[i] == 'x' then
      if i + 3 <= |s| && AllDigits(s[i + 1..i + 3]) then
        assert s[i..i + 3] == ['x'] + s[i + 1..i + 3];
        Some(Parsed(EscapeCode('x', false, s[i + 1..i + 3]), i + 3))
      else None
    else None
  }

  /** `EscapeSequence` at `i` in `span`. After the `\`, the first applicable rule decides:
      a fixed code, a special character of the span, `u`/`x` starting an `EscapeCode`;
      anything else fails, and so does any code past the fixed ones in an unknown span. */
  function ParseEscapeSequence(s: seq<char>, i: nat, span: Span): (r: Option<Parsed<EscapeSequence>>)
    requires i <= |s|
    ensures r.Some? ==> i + 2 <= r.value.next <= |s| && s[i] == '\\'
    ensures r.Some? ==> FlattenEscape(r.value.node) == s[i..(r.value.next)]
    ensures i + 1 < |s| && s[i] == '\\' && IsFixedCode(s[i + 1]) ==>
              r == Some(Parsed(EscapeSequence(SimpleCode(s[i + 1])), i + 2))
    ensures r.Some? && r.value.node.code.SimpleCode? ==>
              r.value.node.code.c == s[i + 1] &&
              (IsFixedCode(s[i + 1]) ||
               (HasSpecialPattern(span) && IsSpecialCharacter(span, s[i + 1])))
    ensures r.Some? && r.value.node.code.EscapeCode? ==>
              !IsFixedCode(s[i + 1]) && HasSpecialPattern(span) &&
              !IsSpecialCharacter(span, s[i + 1]) && (s[i + 1] == 'u' || s[i + 1] == 'x') &&
              ParseEscapeCode(s, i + 1) == Some(Parsed(r.value.node.code, r.value.next))
    ensures i + 1 < |s| && s[i] == '\\' && !IsFixedCode(s[i + 1]) && HasSpecialPattern(span) &&
            IsSpecialCharacter(span, s[i + 1]) ==>
              r == Some(Parsed(EscapeSequence(SimpleCode(s[i + 1])), i + 2))
    ensures i + 1 < |s| && s[i] == '\\' && !IsFixedCode(s[i + 1]) && HasSpecialPattern(span) &&
            !IsSpecialCharacter(span, s[i + 1]) && (s[i + 1] == 'u' || s[i + 1] == 'x') ==>
              (r.Some? <==> ParseEscapeCode(s, i + 1).Some?)
    ensures span == EscapeSpan && r.Some? ==> IsFixedCode(s[i + 1])
  {
    if i + 1 < |s| && s[i] == '\\' then
      var c := s[i + 1];
      assert s[i..i + 2] == "\\" + [c];
      if IsFixedCode(c) then
        Some(Parsed(EscapeSequence(SimpleCode(c)), i + 2))
      else if !HasSpecialPattern(span) then None
      else if IsSpecialCharacter(span, c) then
        Some(Parsed(EscapeSequence(SimpleCode(c)), i + 2))
      else if c == 'u' || c == 'x' then
        match ParseEscapeCode(s, i + 1)
        case None => None
        case Some(Parsed(code, j)) =>
          assert s[i..j] == "\\" + s[i + 1..j];
          Some(Parsed(EscapeSequence(code), j))
      else None
    else None
  }

  /** The `escapables` table: defined on `n`, `r`, `t` and `0`, each mapped to a control
      character below the space. */
  function Escapable(c: char): (r: Option<char>)
    ensures r.Some? <==> c == 'n' || c == 'r' || c == 't' || c == '0'
    ensures r.Some? ==> r.value < ' '
  {
    if c == 'n' then Some('\n')
    else if c == 'r' then Some('\r')
    else if c == 't' then Some('\t')
    else if c == '0' then Some('\0')
    else None
  }

  /** `escapables.get(text) || text`: a one-character key maps to its control
      character, any other text stays itself. */
  function LookupEscapable(text: seq<char>): (r: seq<char>)
    ensures |r| == |text|
    ensures r != text <==> |text| == 1 && Escapable(text[0]).Some?
  {
    if |text| == 1 && Escapable(text[0]).Some? then [Escapable(text[0]).value] else text
  }

  /** The cooked value of an escape, as `getCooked` evidently intends it: a simple code
      through the `escapables` table, a `u`/`x` code as the decimal rendering of its digits
      read in base 16, with no leading zero (`NaN` for an empty digit run); any other code type is an error.
      The span argument of the source does not influence the value and is omitted. */
  function Cooked(e: EscapeSequence): (cooked: Option<string>)
    ensures e.code.SimpleCode? ==> cooked.Some? && |cooked.value| == 1
    ensures e.code.SimpleCode? && Escapable(e.code.c).None? ==> cooked == Some([e.code.c])
    ensures e.code == SimpleCode('n') ==> cooked == Some("\n")
    ensures e.code == SimpleCode('r') ==> cooked == Some("\r")
    ensures e.code == SimpleCode('t') ==> cooked == Some("\t")
    ensures e.code == SimpleCode('0') ==> cooked == Some("\0")
    ensures e.code.EscapeCode? && (e.code.kind == 'u' || e.code.kind == 'x') &&
            |e.code.digits| > 0 && AllDigits(e.code.digits) ==>
              cooked.Some? && |cooked.value| > 0 && AllDigits(cooked.value) &&
              DecimalValue(cooked.value) == HexValue(e.code.digits) &&
              (cooked.value[0] == '0' ==> cooked.value == "0")
    ensures e.code.EscapeCode? && (e.code.kind == 'u' || e.code.kind == 'x') && |e.code.digits| == 0 ==>
              cooked == Some("NaN")
    ensures e.code.EscapeCode? && e.code.kind != 'u' && e.code.kind != 'x' ==> cooked.None?
  {
    match e.code
    case SimpleCode(c) => Some(LookupEscapable([c]))
    case EscapeCode(kind, _, digits) =>
      if kind == 'u' || kind == 'x' then
        if |digits| > 0 && AllDigits(digits) then
          DecimalRoundTrip(HexValue(digits));
          Some(NatToDecimal(HexValue(digits)))
        else Some("NaN")
      else None
  }

  /** `getCooked` as written: it looks the code type up in a slot named `typeToken`, which
      `EscapeCode` never fills (it names the slot `type`), so every code takes the
      `escapables` branch with the code's whole source text. */
  function CookedAsWritten(e: EscapeSequence): (r: Option<string>)
    ensures e.code.SimpleCode? ==> r == Cooked(e)
    ensures e.code.EscapeCode? && (e.code.kind == 'u' || e.code.kind == 'x') ==>
              r == Some(FlattenCode(e.code))
  {
    Some(LookupEscapable(FlattenCode(e.code)))
  }
}

=== FILE: flags.dfy ===
/** The `Flags` production: a maximal run of `[gimsuy]`, checked for repeated letters. */
module FlagsParser {
  import opened Wrappers
  import opened Lexical
  import opened Syntax

  predicate IsFlagLetter(c: char) {
    c == 'g' || c == 'i' || c == 'm' || c == 's' || c == 'u' || c == 'y'
  }

  predicate AllFlagLetters(t: seq<char>) {
    forall k :: 0 <= k < |t| ==> IsFlagLetter(t[k])
  }

  /** Position just after the longest run of flag letters that starts at `i`. */
  function FlagRunEnd(s: seq<char>, i: nat): (j: nat)
    requires i <= |s|
    ensures i <= j <= |s|
    ensures AllFlagLetters(s[i..j])
    ensures j == |s| || !IsFlagLetter(s[j])
    decreases |s| - i
  {
    if i < |s| && IsFlagLetter(s[i]) then
      var j := FlagRunEnd(s, i + 1);
      assert s[i..j] == [s[i]] + s[i + 1..j];
      j
    else i
  }

  /** One `(name, letter occurs in letters)` attribute per row of `table`, in table order. */
  function FlagAttributes(table: seq<(string, char)>, letters: seq<char>): (attrs: seq<(string, bool)>)
    ensures |attrs| == |table|
    ensures forall k :: 0 <= k < |table| ==>
              attrs[k].0 == table[k].0 && (attrs[k].1 <==> table[k].1 in letters)
    decreases |table|
  {
    if |table| == 0 then []
    else [(table[0].0, table[0].1 in letters)] + FlagAttributes(table[1..], letters)
  }

  /** `flagCharacters` pairs each of the six flag letters with an attribute name, each
      letter once. */
  lemma FlagTableLetters()
    ensures |FlagTable| == 6
    ensures forall k :: 0 <= k < 6 ==> IsFlagLetter(FlagTable[k].1)
    ensures forall a, b :: 0 <= a < b < 6 ==> FlagTable[a].1 != FlagTable[b].1
    ensures forall c :: IsFlagLetter(c) ==> exists k :: 0 <= k < 6 && FlagTable[k].1 == c
  {
    forall c | IsFlagLetter(c)
      ensures exists k :: 0 <= k < 6 && FlagTable[k].1 == c
    {
      var k := if c == 'g' then 0 else if c == 'i' then 1 else if c == 'm' then 2
               else if c == 's' then 3 else if c == 'u' then 4 else 5;
      assert FlagTable[k].1 == c;
    }
  }

  /** `Flags` at `i`. It always consumes the whole run of flag letters; it fails exactly
      when a letter repeats. The six attributes follow `FlagTable`'s order whatever the
      order of the letters, and the tokens are the letters in input order. */
  function ParseFlags(s: seq<char>, i: nat): (r: Option<Parsed<Flags>>)
    requires i <= |s|
    ensures r.None? <==> !Distinct(s[i..FlagRunEnd(s, i)])
    ensures r.Some? ==> r.value.next == FlagRunEnd(s, i) && r.value.node.tokens == s[i..(r.value.next)]
    ensures r.Some? ==>
              |r.value.node.attributes| == 6 &&
              forall k :: 0 <= k < 6 ==>
                r.value.node.attributes[k].0 == FlagTable[k].0 &&
                (r.value.node.attributes[k].1 <==> FlagTable[k].1 in r.value.node.tokens)
  {
    var j := FlagRunEnd(s, i);
    var letters := s[i..j];
    if |letters| > 0 && !Unique(letters) then None
    else Some(Parsed(Flags(FlagAttributes(FlagTable, letters), letters), j))
  }

  /** The `Flags` node of a pattern without flag letters: six false attributes. */
  const NoFlags: Flags := Flags(FlagAttributes(FlagTable, []), [])

  /** At the end of the input there are no flag letters: every attribute is off. */
  lemma FlagsAtEnd(s: seq<char>)
    ensures ParseFlags(s, |s|) == Some(Parsed(NoFlags, |s|))
  {
    assert FlagRunEnd(s, |s|) == |s|;
    assert s[|s|..|s|] == [];
  }

  /** The attributes depend only on which letters occur, not on their order. */
  lemma FlagsOrderIndependent(s: seq<char>, i: nat, t: seq<char>, k: nat)
    requires i <= |s| && k <= |t|
    requires ParseFlags(s, i).Some? && ParseFlags(t, k).Some?
    requires forall c :: c in ParseFlags(s, i).value.node.tokens <==> c in ParseFlags(t, k).value.node.tokens
    ensures ParseFlags(s, i).value.node.attributes == ParseFlags(t, k).value.node.attributes
  {
    var a := ParseFlags(s, i).value.node.attributes;
    var b := ParseFlags(t, k).value.node.attributes;
    assert |a| == |b|;
    forall n | 0 <= n < |a|
      ensures a[n] == b[n]
    {
    }
  }
}

=== FILE: grammar.dfy ===
/** The recursive-descent core: `Pattern`, `Alternatives`, `Alternative`/`Elements`,
    `Element` with its dispatch and quantifier re-parenting, and `Group`.

    `closer` is the closing delimiter of the innermost balanced region (`/` for the
    pattern, `)` inside a group): the element loop stops at it and a `Character` never
    consumes it. Every production returns the node and the position after it, or fails. */
module Grammar {
  import opened Wrappers
  import opened Lexical
  import opened Syntax
  import opened Escapes
  import opened FlagsParser
  import opened Quantifiers
  import opened Characters
  import opened Assertions

  /** `(?:` at `i`: the start of a non-capturing group. */
  predicate OpensGroup(s: seq<char>, i: nat) {
    i + 2 < |s| && s[i] == '(' && s[i + 1] == '?' && s[i + 2] == ':'
  }

  /** Whether the text at `i` selects a production other than `Character`. */
  predicate SelectsProduction(s: seq<char>, i: nat) {
    i < |s| &&
    (s[i] == '[' || s[i] == '^' || s[i] == '$' || s[i] == '.' || OpensGroup(s, i) ||
     EscapesBoundary(s, i) || EscapesGap(s, i) || EscapesSetLetter(s, i))
  }

  /** The dispatch of `Element`, first match wins: a character class at `[`, a group at
      `(?:`, an assertion at `^`, `$`, `\b`, `\B`, a gap at `\g`, a character set at `.`
      or `\` with `d`, `s`, `w`, `p` in either case, and otherwise a `Character` read in
      the pattern span. A chosen production that then fails makes the element fail. */
  function ParseAtom(s: seq<char>, i: nat, closer: char): (r: Option<Parsed<Element>>)
    requires i <= |s|
    ensures r.Some? ==> i < r.value.next <= |s| && FlattenElement(r.value.node) == s[i..(r.value.next)]
    ensures r.Some? ==> WellFormedElement(r.value.node) && !r.value.node.Quantifier?
    ensures i < |s| && s[i] == '[' ==> r == ParseCharacterClass(s, i)
    ensures OpensGroup(s, i) ==> r.None? || r.value.node.Group?
    ensures (i < |s| && (s[i] == '^' || s[i] == '$')) || EscapesBoundary(s, i) ==> r == ParseAssertion(s, i)
    ensures EscapesGap(s, i) ==> r == Some(Parsed(Gap, i + 2))
    ensures (i < |s| && s[i] == '.') || EscapesSetLetter(s, i) ==>
              (r.Some? <==> ParseCharacterSet(s, i).Some?) &&
              (r.Some? ==> r.value.node == CharSetElement(ParseCharacterSet(s, i).value.node) &&
                           r.value.next == ParseCharacterSet(s, i).value.next)
    ensures !SelectsProduction(s, i) ==>
              (r.Some? <==> ParseCharacter(s, i, closer, PatternSpan).Some?) &&
              (r.Some? ==> r.value.node == CharacterElement(ParseCharacter(s, i, closer, PatternSpan).value.node) &&
                           r.value.next == ParseCharacter(s, i, closer, PatternSpan).value.next)
    decreases |s| - i, 1
  {
    if i < |s| && s[i] == '[' then
      ParseCharacterClass(s, i)
    else if OpensGroup(s, i) then
      ParseGroup(s, i)
    else if (i < |s| && (s[i] == '^' || s[i] == '$')) || EscapesBoundary(s, i) then
      ParseAssertion(s, i)
    else if EscapesGap(s, i) then
      ParseGap(s, i)
    else if (i < |s| && s[i] == '.') || EscapesSetLetter(s, i) then
      var cs := ParseCharacterSet(s, i);
      if cs.Some? then Some(Parsed(CharSetElement(cs.value.node), cs.value.next)) else None
    else
      var ch := ParseCharacter(s, i, closer, PatternSpan);
      if ch.Some? then Some(Parsed(CharacterElement(ch.value.node), ch.value.next)) else None
  }

  /** `Group` at `i`: `(?:`, alternatives closed by `)`, and the `)`. `GroupAcceptance`
      states when it succeeds and what it holds. */
  function ParseGroup(s: seq<char>, i: nat): (r: Option<Parsed<Element>>)
    requires OpensGroup(s, i)
    ensures r.Some? ==> i < r.value.next <= |s| && FlattenElement(r.value.node) == s[i..(r.value.next)]
    ensures r.Some? ==> r.value.node.Group? && WellFormedElement(r.value.node)
    decreases |s| - i, 0
  {
    var body := ParseAlternatives(s, i + 3, ')');
    if body.Some? && body.value.next < |s| then
      var j := body.value.next;
      assert s[j] == ')';
      GroupText(s, i, j, body.value.node);
      Some(Parsed(Group(body.value.node), j + 1))
    else None
  }

  /** `Element` at `i`: rejects a leading `*`, `+` or `?`, dispatches, and hands the
      element to the quantifier re-parenting step. */
  function ParseElement(s: seq<char>, i: nat, closer: char): (r: Option<Parsed<Element>>)
    requires i <= |s|
    ensures r.Some? ==> i < r.value.next <= |s| && FlattenElement(r.value.node) == s[i..(r.value.next)]
    ensures r.Some? ==> WellFormedElement(r.value.node)
    ensures r.Some? <==> (i == |s| || !IsSigil(s[i])) && ParseAtom(s, i, closer).Some?
    ensures r.Some? ==> r.value == Requantify(s, i, ParseAtom(s, i, closer).value)
    decreases |s| - i, 2
  {
    if i < |s| && IsSigil(s[i]) then None
    else
      var atom := ParseAtom(s, i, closer);
      if atom.None? then None else Some(Requantify(s, i, atom.value))
  }

  /** The quantifier re-parenting of `Element`: when the character after the element is
      `*`, `+`, `?` or `{` and a `Quantifier` parses there, the element becomes that
      quantifier's `element`; otherwise the element stands as it is. */
  function Requantify(s: seq<char>, i: nat, atom: Parsed<Element>): (r: Parsed<Element>)
    requires i < atom.next <= |s| && FlattenElement(atom.node) == s[i..atom.next]
    requires WellFormedElement(atom.node) && !atom.node.Quantifier?
    ensures i < r.next <= |s| && FlattenElement(r.node) == s[i..(r.next)] && WellFormedElement(r.node)
    ensures r.node.Quantifier? <==>
              atom.next < |s| && StartsQuantifier(s[atom.next]) &&
              ParseQuantifier(s, atom.next, atom.node).Some?
    ensures r.node.Quantifier? ==>
              r.node.element == atom.node && Some(r) == ParseQuantifier(s, atom.next, atom.node)
    ensures !r.node.Quantifier? ==> r == atom
  {
    var j := atom.next;
    if j < |s| && StartsQuantifier(s[j]) then
      var q := ParseQuantifier(s, j, atom.node);
      if q.Some? then
        QuantifierText(s, i, j, q.value.next, q.value.node);
        q.value
      else atom
    else atom
  }

  /** The element sequence of an `Alternative`: it stops at the end of the input, at `|`
      and at the active closer, and it is empty exactly when it starts at one of those.
      `ElementsStep` and `ElementsFailure` relate it to `ParseElement`. */
  function ParseElements(s: seq<char>, i: nat, closer: char): (r: Option<Parsed<seq<Element>>>)
    requires i <= |s|
    ensures r.Some? ==> i <= r.value.next <= |s| && FlattenElements(r.value.node) == s[i..(r.value.next)]
    ensures r.Some? ==> WellFormedElementList(r.value.node)
    ensures r.Some? ==> r.value.next == |s| || s[r.value.next] == '|' || s[r.value.next] == closer
    ensures i == |s| || s[i] == '|' || s[i] == closer ==> r == Some(Parsed([], i))
    ensures r.Some? && i < |s| && s[i] != '|' && s[i] != closer ==> |r.value.node| > 0
    decreases |s| - i, 3
  {
    if i == |s| || s[i] == '|' || s[i] == closer then Some(Parsed([], i))
    else
      var e := ParseElement(s, i, closer);
      if e.None? then None
      else
        var rest := ParseElements(s, e.value.next, closer);
        if rest.None? then None
        else
          ElementsText(s, i, e.value.next, rest.value.next, e.value.node, rest.value.node);
          Some(Parsed([e.value.node] + rest.value.node, rest.value.next))
  }

  /** `Alternatives`: one `Alternative`, then another after each `|`. The first
      alternative is the element loop read at `i`, and there is a separator exactly when
      more text follows that loop. `AlternativesStep` and `AlternativesLast` give the rest
      of the list and `AlternativesFailure` says when the production fails. */
  function ParseAlternatives(s: seq<char>, i: nat, closer: char): (r: Option<Parsed<Alternatives>>)
    requires i <= |s|
    ensures r.Some? ==> i <= r.value.next <= |s| && FlattenAlternatives(r.value.node) == s[i..(r.value.next)]
    ensures r.Some? ==> WellFormedAlternatives(r.value.node)
    ensures r.Some? ==> r.value.next == |s| || s[r.value.next] == closer
    ensures r.Some? ==>
              ParseElements(s, i, closer).Some? &&
              r.value.node.alternatives[0] == Alternative(ParseElements(s, i, closer).value.node)
    ensures r.Some? ==> (|r.value.node.separators| == 0 <==> r.value.next == ParseElements(s, i, closer).value.next)
    decreases |s| - i, 5
  {
    var first := ParseElements(s, i, closer);
    if first.None? then None else MoreAlternatives(s, i, closer, first.value)
  }

  /** The alternatives that start with the element loop `first` read at `i`: after a `|`
      the list goes on with the alternatives read there, otherwise `first` is the last
      alternative. */
  function MoreAlternatives(s: seq<char>, i: nat, closer: char, first: Parsed<seq<Element>>)
    : (r: Option<Parsed<Alternatives>>)
    requires i <= first.next <= |s| && FlattenElements(first.node) == s[i..first.next]
    requires WellFormedElementList(first.node)
    requires first.next == |s| || s[first.next] == '|' || s[first.next] == closer
    ensures r.Some? ==> i <= r.value.next <= |s| && FlattenAlternatives(r.value.node) == s[i..(r.value.next)]
    ensures r.Some? ==> WellFormedAlternatives(r.value.node)
    ensures r.Some? ==> r.value.next == |s| || s[r.value.next] == closer
    ensures r.Some? ==> r.value.node.alternatives[0] == Alternative(first.node)
    ensures r.Some? ==> (|r.value.node.separators| == 0 <==> r.value.next == first.next)
    decreases |s| - i, 4
  {
    var j := first.next;
    if j < |s| && s[j] == '|' then JoinAlternatives(s, i, closer, first, ParseAlternatives(s, j + 1, closer))
    else
      SingleAlternativeText(s, i, first);
      Some(Parsed(Alternatives([Alternative(first.node)], []), j))
  }

  lemma SingleAlternativeText(s: seq<char>, i: nat, first: Parsed<seq<Element>>)
    requires i <= first.next <= |s| && FlattenElements(first.node) == s[i..first.next]
    requires WellFormedElementList(first.node)
    ensures FlattenAlternatives(Alternatives([Alternative(first.node)], [])) == s[i..first.next]
    ensures WellFormedAlternatives(Alternatives([Alternative(first.node)], []))
  {
  }

  /** The alternative `first`, the `|` after it, and the alternatives `rest` read after
      that `|`: there is a list exactly when `rest` is one, and it is `first` in front of
      `rest`. */
  function JoinAlternatives(s: seq<char>, i: nat, closer: char, first: Parsed<seq<Element>>,
                            rest: Option<Parsed<Alternatives>>): (r: Option<Parsed<Alternatives>>)
    requires i <= first.next < |s| && s[first.next] == '|'
    requires FlattenElements(first.node) == s[i..first.next] && WellFormedElementList(first.node)
    requires rest.Some? ==>
               first.next + 1 <= rest.value.next <= |s| &&
               FlattenAlternatives(rest.value.node) == s[first.next + 1..rest.value.next] &&
               WellFormedAlternatives(rest.value.node) &&
               (rest.value.next == |s| || s[rest.value.next] == closer)
    ensures r.Some? <==> rest.Some?
    ensures r.Some? ==>
              r.value.node.alternatives == [Alternative(first.node)] + rest.value.node.alternatives &&
              r.value.node.separators == ['|'] + rest.value.node.separators &&
              r.value.next == rest.value.next
    ensures r.Some? ==> i <= r.value.next <= |s| && FlattenAlternatives(r.value.node) == s[i..(r.value.next)]
    ensures r.Some? ==> WellFormedAlternatives(r.value.node)
    ensures r.Some? ==> r.value.node.alternatives[0] == Alternative(first.node) &&
                        |r.value.node.separators| > 0 && first.next < r.value.next &&
                        (r.value.next == |s| || s[r.value.next] == closer)
  {
    if rest.None? then None
    else
      var alt := Alternative(first.node);
      var a := rest.value.node;
      AlternativesText(s, i, first.next, rest.value.next, alt, a);
      Some(Parsed(Alternatives([alt] + a.alternatives, ['|'] + a.separators), rest.value.next))
  }

  /** `Pattern` at `i`: `/`, alternatives closed by `/`, the `/`, and the flags. It
      succeeds exactly when the alternatives stop at a `/` and the flag letters after it
      do not repeat; the body is then those alternatives, and the pattern ends where the
      flag letters end. */
  function ParsePattern(s: seq<char>, i: nat): (r: Option<Parsed<Pattern>>)
    requires i <= |s|
    ensures r.Some? ==> i + 2 <= r.value.next <= |s| && FlattenPattern(r.value.node) == s[i..(r.value.next)]
    ensures r.Some? ==> WellFormedAlternatives(r.value.node.body)
    ensures r.Some? ==> Distinct(r.value.node.flags.tokens) && |r.value.node.flags.attributes| == 6
    ensures r.Some? ==>
              forall k :: 0 <= k < 6 ==>
                r.value.node.flags.attributes[k].0 == FlagTable[k].0 &&
                (r.value.node.flags.attributes[k].1 <==> FlagTable[k].1 in r.value.node.flags.tokens)
    ensures i == |s| || s[i] != '/' ==> r.None?
    ensures i < |s| && s[i] == '/' ==>
              (r.Some? <==> ParseAlternatives(s, i + 1, '/').Some? &&
                            PatternClosed(s, ParseAlternatives(s, i + 1, '/').value.next))
    ensures r.Some? ==>
              ParseAlternatives(s, i + 1, '/').Some? &&
              r.value.node.body == ParseAlternatives(s, i + 1, '/').value.node &&
              r.value.next == ParseAlternatives(s, i + 1, '/').value.next + 1 + |r.value.node.flags.tokens|
  {
    if i < |s| && s[i] == '/' then
      var body := ParseAlternatives(s, i + 1, '/');
      if body.Some? then ClosePattern(s, i, body.value) else None
    else None
  }

  /** The alternatives of a pattern that end at `j` are closed: a `/` follows them, and
      the flag letters after it do not repeat. */
  predicate PatternClosed(s: seq<char>, j: nat) {
    j < |s| && s[j] == '/' && Distinct(s[j + 1..FlagRunEnd(s, j + 1)])
  }

  /** The end of `Pattern` once its alternatives are read: the closing `/` and the flags. */
  function ClosePattern(s: seq<char>, i: nat, body: Parsed<Alternatives>): (r: Option<Parsed<Pattern>>)
    requires i < |s| && s[i] == '/' && i + 1 <= body.next <= |s|
    requires FlattenAlternatives(body.node) == s[i + 1..body.next] && WellFormedAlternatives(body.node)
    ensures r.Some? <==> PatternClosed(s, body.next)
    ensures r.Some? ==> r.value.node.body == body.node && r.value.next == FlagRunEnd(s, body.next + 1)
    ensures r.Some? ==> r.value.next == body.next + 1 + |r.value.node.flags.tokens|
    ensures r.Some? ==> i + 2 <= r.value.next <= |s| && FlattenPattern(r.value.node) == s[i..(r.value.next)]
    ensures r.Some? ==> Distinct(r.value.node.flags.tokens) && |r.value.node.flags.attributes| == 6
    ensures r.Some? ==>
              forall k :: 0 <= k < 6 ==>
                r.value.node.flags.attributes[k].0 == FlagTable[k].0 &&
                (r.value.node.flags.attributes[k].1 <==> FlagTable[k].1 in r.value.node.flags.tokens)
  {
    var j := body.next;
    if j < |s| && s[j] == '/' then
      var flags := ParseFlags(s, j + 1);
      if flags.Some? then
        var k := flags.value.next;
        assert k == FlagRunEnd(s, j + 1) && k <= |s|;
        assert flags.value.node.tokens == s[j + 1..k];
        PatternText(s, i, j, k, body.node, flags.value.node);
        Some(Parsed(Pattern(body.node, flags.value.node), k))
      else None
    else None
  }

  /** A whole regex literal: a `Pattern` that consumes all of the input. */
  function Parse(s: seq<char>): (r: Option<Pattern>)
    ensures r.Some? <==> ParsePattern(s, 0).Some? && ParsePattern(s, 0).value.next == |s|
    ensures r.Some? ==> r.value == ParsePattern(s, 0).value.node
    ensures r.Some? ==> FlattenPattern(r.value) == s
    ensures r.Some? ==> WellFormedAlternatives(r.value.body)
    ensures r.Some? ==> Distinct(r.value.flags.tokens) && |r.value.flags.attributes| == 6
    ensures r.Some? ==>
              forall k :: 0 <= k < 6 ==>
                r.value.flags.attributes[k].0 == FlagTable[k].0 &&
                (r.value.flags.attributes[k].1 <==> FlagTable[k].1 in r.value.flags.tokens)
  {
    var p := ParsePattern(s, 0);
    if p.Some? && p.value.next == |s| then
      assert s[0..|s|] == s;
      Some(p.value.node)
    else None
  }

  // ---------------------------------------------------------------------------
  // Source-text bookkeeping for the productions above.

  // The facts below relate a production to the ones it calls at other positions. They
  // are lemmas rather than part of the functions' own contracts because, stated there,
  // each would hand the verifier a fresh call further on in the text whose contract
  // names the next one, without end.

  /** At `(?:` the dispatch takes the `Group` production, whatever the active closer. */
  lemma GroupDispatch(s: seq<char>, i: nat, closer: char)
    requires OpensGroup(s, i)
    ensures ParseAtom(s, i, closer) == ParseGroup(s, i)
  {
  }

  /** A group succeeds exactly when its alternatives parse and stop at a `)` rather than
      at the end of the input; it then holds those alternatives and ends after the `)`. */
  lemma GroupAcceptance(s: seq<char>, i: nat)
    requires OpensGroup(s, i)
    ensures (var body := ParseAlternatives(s, i + 3, ')');
             ParseGroup(s, i).Some? <==> body.Some? && body.value.next < |s|)
    ensures (var body := ParseAlternatives(s, i + 3, ')');
             ParseGroup(s, i).Some? ==>
               ParseGroup(s, i).value.node.body == body.value.node &&
               ParseGroup(s, i).value.next == body.value.next + 1)
  {
  }

  /** After its first element, the element loop continues exactly where that element
      ended: the rest of the list is the loop's result from there. Away from a stopping
      character, the loop succeeds exactly when its first element and that rest do. */
  lemma ElementsStep(s: seq<char>, i: nat, closer: char)
    requires i <= |s|
    ensures (var r := ParseElements(s, i, closer);
             r.Some? && |r.value.node| > 0 ==>
               ParseElement(s, i, closer).Some? &&
               r.value.node[0] == ParseElement(s, i, closer).value.node &&
               ParseElements(s, ParseElement(s, i, closer).value.next, closer) ==
                 Some(Parsed(r.value.node[1..], r.value.next)))
    ensures i < |s| && s[i] != '|' && s[i] != closer ==>
              (ParseElements(s, i, closer).Some? <==>
                 ParseElement(s, i, closer).Some? &&
                 ParseElements(s, ParseElement(s, i, closer).value.next, closer).Some?)
  {
    var r := ParseElements(s, i, closer);
    if r.Some? && |r.value.node| > 0 {
      var e := ParseElement(s, i, closer).value;
      var rest := ParseElements(s, e.next, closer).value;
      assert r.value.node == [e.node] + rest.node;
      assert ([e.node] + rest.node)[1..] == rest.node;
    }
  }

  /** The element loop started at `i` reaches `j`: each element it reads before `j`
      starts at a character that does not stop the loop, parses, and ends no later
      than `j`. */
  predicate ElementsReach(s: seq<char>, i: nat, j: nat, closer: char)
    requires i <= j <= |s|
    decreases j - i
  {
    i == j ||
    (s[i] != '|' && s[i] != closer && ParseElement(s, i, closer).Some? &&
     ParseElement(s, i, closer).value.next <= j &&
     ElementsReach(s, ParseElement(s, i, closer).value.next, j, closer))
  }

  /** The element loop succeeds and ends at `k` exactly when it reaches `k` and `k` stops
      it: the end of the input, a `|` or the closer. */
  lemma {:induction false} ElementsAcceptance(s: seq<char>, i: nat, k: nat, closer: char)
    requires i <= k <= |s|
    ensures (ParseElements(s, i, closer).Some? && ParseElements(s, i, closer).value.next == k) <==>
            ElementsReach(s, i, k, closer) && (k == |s| || s[k] == '|' || s[k] == closer)
    decreases k - i
  {
    if i < k && s[i] != '|' && s[i] != closer && ParseElement(s, i, closer).Some? {
      var n := ParseElement(s, i, closer).value.next;
      if n <= k {
        ElementsAcceptance(s, n, k, closer);
      }
    }
  }

  /** The element loop fails exactly when it reaches a position that does not stop it and
      where no element parses. */
  lemma ElementsFailure(s: seq<char>, i: nat, closer: char)
    requires i <= |s|
    ensures ParseElements(s, i, closer).None? <==>
            exists j :: i <= j < |s| && ElementsReach(s, i, j, closer) &&
                        s[j] != '|' && s[j] != closer && ParseElement(s, j, closer).None?
  {
    if ParseElements(s, i, closer).None? {
      var j := ElementsFailureWitness(s, i, closer);
    }
    forall j | i <= j < |s| && ElementsReach(s, i, j, closer) &&
               s[j] != '|' && s[j] != closer && ParseElement(s, j, closer).None?
      ensures ParseElements(s, i, closer).None?
    {
      ElementsReachFailure(s, i, j, closer);
    }
  }

  lemma {:induction false} ElementsFailureWitness(s: seq<char>, i: nat, closer: char)
    returns (j: nat)
    requires i <= |s| && ParseElements(s, i, closer).None?
    ensures i <= j < |s| && ElementsReach(s, i, j, closer) &&
            s[j] != '|' && s[j] != closer && ParseElement(s, j, closer).None?
    decreases |s| - i
  {
    var e := ParseElement(s, i, closer);
    if e.None? {
      j := i;
    } else {
      var n := e.value.next;
      j := ElementsFailureWitness(s, n, closer);
      assert ElementsReach(s, i, j, closer);
    }
  }

  lemma {:induction false} ElementsReachFailure(s: seq<char>, i: nat, j: nat, closer: char)
    requires i <= j < |s| && ElementsReach(s, i, j, closer)
    requires s[j] != '|' && s[j] != closer && ParseElement(s, j, closer).None?
    ensures ParseElements(s, i, closer).None?
    decreases j - i
  {
    if i < j {
      ElementsReachFailure(s, ParseElement(s, i, closer).value.next, j, closer);
    }
  }

  /** After a first alternative that stops at a `|`, the alternatives at `i` are that
      alternative joined to the alternatives read after the `|`: `JoinAlternatives`
      says when that succeeds and what it holds. */
  lemma AlternativesStep(s: seq<char>, i: nat, closer: char)
    requires i <= |s|
    ensures (var first := ParseElements(s, i, closer);
             first.Some? && first.value.next < |s| && s[first.value.next] == '|' ==>
               ParseAlternatives(s, i, closer) ==
               JoinAlternatives(s, i, closer, first.value, ParseAlternatives(s, first.value.next + 1, closer)))
  {
    if ParseElements(s, i, closer).Some? {
      AlternativesUnfold(s, i, closer);
    }
  }

  /** Once the element loop at `i` succeeds, the alternatives continue from its result. */
  lemma AlternativesUnfold(s: seq<char>, i: nat, closer: char)
    requires i <= |s| && ParseElements(s, i, closer).Some?
    ensures ParseAlternatives(s, i, closer) == MoreAlternatives(s, i, closer, ParseElements(s, i, closer).value)
  {
  }

  /** An alternative that does not stop at a `|` is the last one. */
  lemma AlternativesLast(s: seq<char>, i: nat, closer: char)
    requires i <= |s|
    ensures (var first := ParseElements(s, i, closer);
             first.Some? && (first.value.next == |s| || s[first.value.next] != '|') ==>
               ParseAlternatives(s, i, closer) ==
               Some(Parsed(Alternatives([Alternative(first.value.node)], []), first.value.next)))
  {
    if ParseElements(s, i, closer).Some? {
      AlternativesUnfold(s, i, closer);
    }
  }

  /** The alternatives fail exactly when their first alternative fails, or when that
      alternative stops at a `|` and the alternatives after the `|` fail. With
      `ElementsFailure` for each alternative, this says exactly which inputs fail. */
  lemma AlternativesFailure(s: seq<char>, i: nat, closer: char)
    requires i <= |s|
    ensures (var first := ParseElements(s, i, closer);
             ParseAlternatives(s, i, closer).None? <==>
               first.None? ||
               (first.value.next < |s| && s[first.value.next] == '|' &&
                ParseAlternatives(s, first.value.next + 1, closer).None?))
  {
    AlternativesFailPastBar(s, i, closer);
    AlternativesSucceedLast(s, i, closer);
  }

  /** Past the `|` that ends the first alternative, the alternatives fail exactly when
      the alternatives after the `|` do. */
  lemma AlternativesFailPastBar(s: seq<char>, i: nat, closer: char)
    requires i <= |s|
    ensures (var first := ParseElements(s, i, closer);
             first.Some? && first.value.next < |s| && s[first.value.next] == '|' ==>
               (ParseAlternatives(s, i, closer).None? <==>
                ParseAlternatives(s, first.value.next + 1, closer).None?))
  {
    AlternativesStep(s, i, closer);
  }

  /** A first alternative that parses and does not stop at a `|` makes the alternatives
      succeed. */
  lemma AlternativesSucceedLast(s: seq<char>, i: nat, closer: char)
    requires i <= |s|
    ensures (var first := ParseElements(s, i, closer);
             first.Some? && (first.value.next == |s| || s[first.value.next] != '|') ==>
               ParseAlternatives(s, i, closer).Some?)
  {
    AlternativesLast(s, i, closer);
  }

  lemma GroupText(s: seq<char>, i: nat, j: nat, body: Alternatives)
    requires i + 3 <= j < |s| && s[i] == '(' && s[i + 1] == '?' && s[i + 2] == ':' && s[j] == ')'
    requires FlattenAlternatives(body) == s[i + 3..j]
    ensures FlattenElement(Group(body)) == s[i..j + 1]
  {
    assert s[i..i + 3] == "(?:" by {
      assert s[i..i + 3] == [s[i], s[i + 1], s[i + 2]];
    }
    assert s[j..j + 1] == [s[j]];
    assert s[i..j + 1] == s[i..i + 3] + s[i + 3..j] + s[j..j + 1];
  }

  lemma QuantifierText(s: seq<char>, i: nat, j: nat, k: nat, q: Element)
    requires i < j < k <= |s| && q.Quantifier?
    requires FlattenElement(q.element) == s[i..j] && FlattenQuantifierForm(q.form) == s[j..k]
    ensures FlattenElement(q) == s[i..k]
  {
    assert s[i..k] == s[i..j] + s[j..k];
  }

  lemma ElementsText(s: seq<char>, i: nat, j: nat, k: nat, e: Element, es: seq<Element>)
    requires i <= j <= k <= |s|
    requires FlattenElement(e) == s[i..j] && FlattenElements(es) == s[j..k]
    ensures FlattenElements([e] + es) == s[i..k]
  {
    assert ([e] + es)[1..] == es;
    assert s[i..k] == s[i..j] + s[j..k];
  }

  lemma AlternativesText(s: seq<char>, i: nat, j: nat, k: nat, alt: Alternative, rest: Alternatives)
    requires i <= j < k <= |s| && s[j] == '|'
    requires FlattenElements(alt.elements) == s[i..j]
    requires FlattenAlternatives(rest) == s[j + 1..k]
    requires |rest.alternatives| == |rest.separators| + 1
    ensures FlattenAlternatives(Alternatives([alt] + rest.alternatives, ['|'] + rest.separators)) == s[i..k]
  {
    var alts := [alt] + rest.alternatives;
    var seps := ['|'] + rest.separators;
    assert alts[1..] == rest.alternatives && seps[1..] == rest.separators;
    assert s[i..k] == s[i..j] + [s[j]] + s[j + 1..k];
  }

  lemma PatternText(s: seq<char>, i: nat, j: nat, k: nat, body: Alternatives, flags: Flags)
    requires i < j < |s| && j + 1 <= k <= |s| && s[i] == '/' && s[j] == '/'
    requires FlattenAlternatives(body) == s[i + 1..j] && flags.tokens == s[j + 1..k]
    ensures FlattenPattern(Pattern(body, flags)) == s[i..k]
  {
    assert s[i..i + 1] == [s[i]] && s[j..j + 1] == [s[j]];
    assert s[i..k] == s[i..i + 1] + s[i + 1..j] + s[j..j + 1] + s[j + 1..k];
  }
}

=== FILE: lexical.dfy ===
/** Character tests and the numeric helpers behind `UnsignedInteger`, `EscapeCode`
    values, `parseInt` on digit strings, `Number#toString(10)` and the flag `unique` test. */
module Lexical {

  /** `\d` of a JavaScript regular expression without the `u` flag. */
  predicate IsDigit(c: char) {
    '0' <= c <= '9'
  }

  predicate AllDigits(t: seq<char>) {
    forall k {:trigger IsDigit(t[k])} :: 0 <= k < |t| ==> IsDigit(t[k])
  }

  function DigitValue(c: char): (d: nat)
    requires IsDigit(c)
    ensures d < 10
  {
    c as int - '0' as int
  }

  function DigitChar(d: nat): (c: char)
    requires d < 10
    ensures IsDigit(c) && DigitValue(c) == d
  {
    (d + '0' as int) as char
  }

  /** Position just after the longest run of decimal digits that starts at `i`. */
  function DigitRunEnd(s: seq<char>, i: nat): (j: nat)
    requires i <= |s|
    ensures i <= j <= |s|
    ensures AllDigits(s[i..j])
    ensures j == |s| || !IsDigit(s[j])
    decreases |s| - i
  {
    if i < |s| && IsDigit(s[i]) then
      var j := DigitRunEnd(s, i + 1);
      assert s[i..j] == [s[i]] + s[i + 1..j];
      j
    else i
  }

  /** Every character is the digit `0`. */
  predicate AllZeros(t: seq<char>) {
    forall k :: 0 <= k < |t| ==> t[k] == '0'
  }

  /** A string ends in zeros exactly when its last character is `0` and the rest are zeros. */
  lemma AllZerosSnoc(t: seq<char>)
    requires |t| > 0
    ensures AllZeros(t) <==> AllZeros(t[..|t| - 1]) && t[|t| - 1] == '0'
  {
    var p := t[..|t| - 1];
    if AllZeros(p) && t[|t| - 1] == '0' {
      forall k | 0 <= k < |t|
        ensures t[k] == '0'
      {
        if k < |p| {
          assert t[k] == p[k];
        }
      }
    }
  }

  /** `parseInt(t, 10)` for a string of decimal digits: zero exactly when every digit is `0`. */
  function DecimalValue(t: seq<char>): (v: nat)
    requires AllDigits(t)
    ensures v == 0 <==> AllZeros(t)
    decreases |t|
  {
    if |t| == 0 then 0
    else
      AllZerosSnoc(t);
      10 * DecimalValue(t[..|t| - 1]) + DigitValue(t[|t| - 1])
  }

  /** `parseInt(t, 16)` for a string of decimal digits, the only strings the grammar hands
      it (escape-code digits are matched with `\d`). The empty string reads as 0 here;
      `Cooked` does not read it and renders `NaN` instead. Read in base 16 the digits are
      zero exactly when they all are `0`, and never less than read in base 10. */
  function HexValue(t: seq<char>): (v: nat)
    requires AllDigits(t)
    ensures v == 0 <==> AllZeros(t)
    ensures v >= DecimalValue(t)
    decreases |t|
  {
    if |t| == 0 then 0
    else
      var p := t[..|t| - 1];
      AllZerosSnoc(t);
      assert 16 * HexValue(p) >= 10 * DecimalValue(p);
      16 * HexValue(p) + DigitValue(t[|t| - 1])
  }

  /** `n.toString(10)`: the canonical decimal rendering, without leading zeros. */
  function NatToDecimal(n: nat): (t: seq<char>)
    ensures |t| >= 1 && AllDigits(t)
    ensures t[0] == '0' <==> n == 0
    ensures n == 0 ==> t == "0"
    decreases n
  {
    if n < 10 then [DigitChar(n)] else NatToDecimal(n / 10) + [DigitChar(n % 10)]
  }

  /** Rendering a number in decimal and reading it back gives the number. */
  lemma {:induction false} DecimalRoundTrip(n: nat)
    ensures DecimalValue(NatToDecimal(n)) == n
    decreases n
  {
    if n >= 10 {
      DecimalRoundTrip(n / 10);
      var t := NatToDecimal(n);
      assert t[..|t| - 1] == NatToDecimal(n / 10);
    }
  }

  /** The source's `unique`: the string is as long as its set of characters, which is
      the case exactly when no character repeats. */
  predicate Unique(t: seq<char>): (b: bool)
    ensures b <==> Distinct(t)
  {
    UniqueIffDistinct(t);
    |t| == |set c | c in t|
  }

  /** No character occurs at two positions. */
  predicate Distinct(t: seq<char>) {
    forall a, b :: 0 <= a < b < |t| ==> t[a] != t[b]
  }

  lemma {:induction false} CharSetSize(t: seq<char>)
    ensures |set c | c in t| <= |t|
    decreases |t|
  {
    if |t| > 0 {
      var p := t[..|t| - 1];
      CharSetSize(p);
      assert (set c | c in t) == (set c | c in p) + {t[|t| - 1]};
    }
  }

  /** Appending a character keeps the sequence distinct exactly when it is new. */
  lemma DistinctSnoc(p: seq<char>, x: char)
    ensures Distinct(p + [x]) <==> Distinct(p) && x !in p
  {
    var t := p + [x];
    if Distinct(t) {
      forall a, b | 0 <= a < b < |p|
        ensures p[a] != p[b]
      {
        assert t[a] == p[a] && t[b] == p[b];
      }
      forall k | 0 <= k < |p|
        ensures p[k] != x
      {
        assert t[k] == p[k] && t[|p|] == x;
      }
    }
    if Distinct(p) && x !in p {
      forall a, b | 0 <= a < b < |t|
        ensures t[a] != t[b]
      {
        assert t[a] == p[a];
        if b < |p| {
          assert t[b] == p[b];
        }
      }
    }
  }

  /** The length-versus-set-size test is exactly "no repeated character". */
  lemma {:induction false} UniqueIffDistinct(t: seq<char>)
    ensures |t| == |set c | c in t| <==> Distinct(t)
    decreases |t|
  {
    if |t| > 0 {
      var p := t[..|t| - 1];
      var x := t[|t| - 1];
      UniqueIffDistinct(p);
      CharSetSize(p);
      assert t == p + [x];
      DistinctSnoc(p, x);
      assert (set c | c in t) == (set c | c in p) + {x};
      if x in p {
        assert (set c | c in t) == (set c | c in p);
      } else {
        assert |set c | c in t| == |set c | c in p| + 1;
      }
    }
  }
}

=== FILE: properties.dfy ===
/** Properties that relate several productions or several calls. */
module GrammarProperties {
  import opened Wrappers
  import opened Lexical
  import opened Syntax
  import opened Escapes
  import opened Quantifiers
  import opened Characters
  import opened FlagsParser
  import opened Grammar

  /** A sigil right after an element is always taken as its quantifier: the element
      the dispatch produced becomes the `element` of the new node, and the sigil fixes
      the bounds. */
  lemma SigilAlwaysQuantifies(s: seq<char>, i: nat, atom: Parsed<Element>)
    requires i < atom.next < |s| && FlattenElement(atom.node) == s[i..atom.next]
    requires WellFormedElement(atom.node) && !atom.node.Quantifier?
    requires IsSigil(s[atom.next])
    ensures Requantify(s, i, atom) == Parsed(QuantifierNode(atom.node, Sigil(s[atom.next])), atom.next + 1)
  {
  }

  /** Without a quantifier character after it, an element is just the atom the
      dispatch produced. */
  lemma PlainElement(s: seq<char>, i: nat, closer: char)
    requires i < |s| && !IsSigil(s[i]) && ParseAtom(s, i, closer).Some?
    requires (var j := ParseAtom(s, i, closer).value.next; j == |s| || !StartsQuantifier(s[j]))
    ensures ParseElement(s, i, closer) == ParseAtom(s, i, closer)
  {
  }

  /** A character that starts no other production is read as one literal. */
  lemma LiteralAtom(s: seq<char>, i: nat, closer: char)
    requires i < |s| && !IsLineControl(s[i]) && s[i] != '\\' && s[i] != closer
    requires s[i] != '[' && s[i] != '^' && s[i] != '$' && s[i] != '.' && !OpensGroup(s, i)
    ensures ParseAtom(s, i, closer) == Some(Parsed(CharacterElement(Literal(s[i])), i + 1))
  {
  }

  /** Quantifiers do not stack: a sigil right after a quantified element starts a new
      element, which the sigil guard rejects, so the whole element sequence fails
      (`a+*`, `a{2}?`). */
  lemma QuantifierNotStackable(s: seq<char>, i: nat, closer: char)
    requires !IsSigil(closer)
    requires i < |s| && s[i] != '|' && s[i] != closer
    requires ParseElement(s, i, closer).Some? && ParseElement(s, i, closer).value.node.Quantifier?
    requires (var j := ParseElement(s, i, closer).value.next; j < |s| && IsSigil(s[j]))
    ensures ParseElements(s, i, closer).None?
  {
    var j := ParseElement(s, i, closer).value.next;
    assert ParseElement(s, j, closer).None?;
  }

  /** A `-` inside a class that is followed by the closing `]` is never a range
      operator: the element before it stays alone. */
  lemma DashBeforeCloserIsLiteral(s: seq<char>, i: nat)
    requires i <= |s| && ParseClassAtom(s, i).Some?
    requires (var j := ParseClassAtom(s, i).value.next; j + 1 < |s| && s[j] == '-' && s[j + 1] == ClassCloser)
    ensures ParseClassElement(s, i) == ParseClassAtom(s, i)
  {
  }

  /** A class body `x-y]` whose two ends are plain characters, the dash included, is one
      range from `x` to `y`, and the element loop stops at the `]`. */
  lemma PlainRange(s: seq<char>, i: nat)
    requires i + 3 < |s| && s[i + 1] == '-' && s[i + 3] == ClassCloser
    requires !IsLineControl(s[i]) && s[i] != '\\' && s[i] != ']'
    requires !IsLineControl(s[i + 2]) && s[i + 2] != '\\' && s[i + 2] != ']'
    ensures ParseClassElements(s, i) ==
              Some(Parsed([CharacterClassRange(Literal(s[i]), Literal(s[i + 2]))], i + 3))
  {
    var range := CharacterClassRange(Literal(s[i]), Literal(s[i + 2]));
    assert ParseClassAtom(s, i) == Some(Parsed(CharElement(Literal(s[i])), i + 1));
    assert ParseCharacter(s, i + 2, ClassCloser, CharacterClassSpan) == Some(Parsed(Literal(s[i + 2]), i + 3));
    assert ParseClassElement(s, i) == Some(Parsed(range, i + 3));
    assert ParseClassElements(s, i + 3) == Some(Parsed([], i + 3));
    assert [range] + [] == [range];
  }

  /** Escapes are span-sensitive only in one direction: whatever the class span accepts,
      the pattern span accepts with the same code, because the class's special
      characters are a subset of the pattern's. */
  lemma ClassEscapeAcceptedInPattern(s: seq<char>, i: nat)
    requires i <= |s| && ParseEscapeSequence(s, i, CharacterClassSpan).Some?
    ensures ParseEscapeSequence(s, i, PatternSpan) == ParseEscapeSequence(s, i, CharacterClassSpan)
  {
    var c := s[i + 1];
    if !IsFixedCode(c) {
      if ParseEscapeSequence(s, i, CharacterClassSpan).value.node.code.SimpleCode? {
        ClassSpecialEscapeInPattern(s, i);
      } else {
        ClassCodeEscapeInPattern(s, i);
      }
    }
  }

  lemma ClassSpecialEscapeInPattern(s: seq<char>, i: nat)
    requires i + 1 < |s| && s[i] == '\\' && !IsFixedCode(s[i + 1])
    requires IsSpecialCharacter(CharacterClassSpan, s[i + 1])
    ensures ParseEscapeSequence(s, i, PatternSpan) == ParseEscapeSequence(s, i, CharacterClassSpan)
  {
    assert IsSpecialCharacter(PatternSpan, s[i + 1]);
  }

  lemma ClassCodeEscapeInPattern(s: seq<char>, i: nat)
    requires i <= |s| && ParseEscapeSequence(s, i, CharacterClassSpan).Some?
    requires ParseEscapeSequence(s, i, CharacterClassSpan).value.node.code.EscapeCode?
    ensures ParseEscapeSequence(s, i, PatternSpan) == ParseEscapeSequence(s, i, CharacterClassSpan)
  {
    var inClass := ParseEscapeSequence(s, i, CharacterClassSpan).value;
    var c := s[i + 1];
    assert c == 'u' || c == 'x';
    assert !IsSpecialCharacter(PatternSpan, c);
    assert ParseEscapeCode(s, i + 1) == Some(Parsed(inClass.node.code, inClass.next));
  }

  /** Every escape the grammar accepts has a cooked value; for a `u`/`x` code with digits
      it is a decimal numeral whose value is the digits read in base 16. */
  lemma ParsedEscapesCook(s: seq<char>, i: nat, span: Span)
    requires i <= |s| && ParseEscapeSequence(s, i, span).Some?
    ensures (var e := ParseEscapeSequence(s, i, span).value.node;
             Cooked(e).Some? &&
             (e.code.EscapeCode? && |e.code.digits| > 0 ==>
                AllDigits(Cooked(e).value) && DecimalValue(Cooked(e).value) == HexValue(e.code.digits)))
  {
  }

  /** The cooked value of `getCooked` as written keeps a `u`/`x` code's raw text, so it
      never is the decimal rendering the corrected `Cooked` gives: the raw text starts
      with the letter `u` or `x`, a numeral does not. */
  lemma AsWrittenCookingKeepsRawText(s: seq<char>, i: nat, span: Span)
    requires i <= |s| && ParseEscapeSequence(s, i, span).Some?
    requires ParseEscapeSequence(s, i, span).value.node.code.EscapeCode?
    ensures (var e := ParseEscapeSequence(s, i, span).value.node;
             CookedAsWritten(e) == Some(s[i + 1..ParseEscapeSequence(s, i, span).value.next]) &&
             CookedAsWritten(e) != Cooked(e))
  {
    var r := ParseEscapeSequence(s, i, span).value;
    var e := r.node;
    assert FlattenEscape(e) == s[i..r.next];
    assert FlattenCode(e.code) == s[i + 1..r.next];
    var raw := FlattenCode(e.code);
    assert raw[0] == 'u' || raw[0] == 'x';
    if |e.code.digits| > 0 {
      assert Cooked(e).Some? && AllDigits(Cooked(e).value);
      assert !IsDigit(raw[0]);
    } else {
      assert Cooked(e) == Some("NaN");
    }
  }

  /** A pattern with a single alternative and no flags. */
  function Single(es: seq<Element>): Pattern {
    Pattern(Alternatives([Alternative(es)], []), NoFlags)
  }

  /** An alternative at `p` that is one element followed by the closer is the last
      alternative, holding just that element. */
  lemma {:induction false} SingleElementBody(s: seq<char>, e: Element, p: nat, n: nat)
    requires p < n < |s| && s[p] != '/' && s[p] != '|' && s[n] == '/'
    requires ParseElement(s, p, '/') == Some(Parsed(e, n))
    ensures ParseAlternatives(s, p, '/') == Some(Parsed(Alternatives([Alternative([e])], []), n))
  {
    assert ParseElements(s, n, '/') == Some(Parsed([], n));
    assert [e] + [] == [e];
    assert ParseElements(s, p, '/') == Some(Parsed([e], n));
  }

  /** A literal without flag letters carries `NoFlags`. */
  lemma {:induction false} NoFlagsAtEnd(s: seq<char>, body: Alternatives, n: nat)
    requires 1 <= n && |s| == n + 1 && s[0] == '/' && s[n] == '/'
    requires ParseAlternatives(s, 1, '/') == Some(Parsed(body, n))
    ensures Parse(s) == Some(Pattern(body, NoFlags))
  {
    FlagsAtEnd(s);
    assert ParsePattern(s, 0) == Some(Parsed(Pattern(body, NoFlags), n + 1));
  }

  /** A literal `/e/` whose body is one element parses to that element alone. */
  lemma SingleElementPattern(s: seq<char>, e: Element, n: nat)
    requires 2 <= n && |s| == n + 1 && s[0] == '/' && s[1] != '/' && s[1] != '|' && s[n] == '/'
    requires ParseElement(s, 1, '/') == Some(Parsed(e, n))
    ensures Parse(s) == Some(Single([e]))
  {
    SingleElementBody(s, e, 1, n);
    NoFlagsAtEnd(s, Alternatives([Alternative([e])], []), n);
  }

  /** A literal `/[...]/` whose body is one character class parses to that class alone. */
  lemma SingleClassPattern(s: seq<char>, cls: Element, n: nat)
    requires 3 <= n && |s| == n + 1 && s[0] == '/' && s[1] == '[' && s[n] == '/'
    requires ParseCharacterClass(s, 1) == Some(Parsed(cls, n))
    ensures Parse(s) == Some(Single([cls]))
  {
    assert ParseAtom(s, 1, '/') == Some(Parsed(cls, n));
    PlainElement(s, 1, '/');
    SingleElementPattern(s, cls, n);
  }

  /** A single character that starts no other production is one literal `Character`. */
  lemma SingleLiteral(c: char)
    requires !IsLineControl(c) && !IsSigil(c) && c != '\\' && c != '/' && c != '|'
    requires c != '[' && c != '^' && c != '$' && c != '.'
    ensures Parse(['/', c, '/']) ==
              Some(Single([CharacterElement(Literal(c))]))
  {
    var s := ['/', c, '/'];
    var e := CharacterElement(Literal(c));
    LiteralAtom(s, 1, '/');
    PlainElement(s, 1, '/');
    SingleElementPattern(s, e, 2);
  }
}

=== FILE: quantifiers.dfy ===
/** The `Quantifier` production: it wraps an element that was already parsed. */
module Quantifiers {
  import opened Wrappers
  import opened Lexical
  import opened Syntax

  /** The sigils `*`, `+` and `?`. */
  predicate IsSigil(c: char) {
    c == '*' || c == '+' || c == '?'
  }

  /** The characters after an element that make it the `element` of a `Quantifier`. */
  predicate StartsQuantifier(c: char) {
    IsSigil(c) || c == '{'
  }

  /** The quantifier node around `held`, with the bound attributes of `form`. Its text is
      the held element's text followed by the form's, and it is well formed exactly when
      it holds a well-formed element that is not itself a quantifier. */
  function QuantifierNode(held: Element, form: QuantifierForm): (q: Element)
    ensures q.Quantifier? && q.element == held && q.form == form
    ensures q.min == MinAttribute(form) && q.max == MaxAttribute(form)
    ensures FlattenElement(q) == FlattenElement(held) + FlattenQuantifierForm(form)
    ensures WellFormedElement(q) <==> WellFormedElement(held) && !held.Quantifier?
  {
    Quantifier(held, form, MinAttribute(form), MaxAttribute(form))
  }

  /** `Quantifier` at `i`, holding `held` as its `element`: a sigil `*`, `+` or `?`, or a
      brace form. */
  function ParseQuantifier(s: seq<char>, i: nat, held: Element): (r: Option<Parsed<Element>>)
    requires i <= |s|
    ensures r.Some? ==> i < r.value.next <= |s|
    ensures r.Some? ==> r.value.node.Quantifier? && r.value.node.element == held
    ensures r.Some? ==> FlattenQuantifierForm(r.value.node.form) == s[i..(r.value.next)]
    ensures r.Some? ==> r.value.node.min == MinAttribute(r.value.node.form) &&
                        r.value.node.max == MaxAttribute(r.value.node.form)
    ensures i < |s| && IsSigil(s[i]) ==> r == Some(Parsed(QuantifierNode(held, Sigil(s[i])), i + 1))
    ensures r.Some? && r.value.node.form.Braces? ==>
              s[i] == '{' && |r.value.node.form.minDigits| > 0 &&
              AllDigits(r.value.node.form.minDigits) && AllDigits(r.value.node.form.maxDigits) &&
              (!r.value.node.form.comma ==> |r.value.node.form.maxDigits| == 0)
    ensures i < |s| && s[i] == '{' && DigitRunEnd(s, i + 1) == i + 1 ==> r.None?
    ensures i < |s| && s[i] == '{' ==>
              (r.Some? <==> ParseBraces(s, i).Some?) &&
              (r.Some? ==> r.value.node.form == ParseBraces(s, i).value.node &&
                           r.value.next == ParseBraces(s, i).value.next)
    ensures i < |s| && !StartsQuantifier(s[i]) ==> r.None?
  {
    if i < |s| && IsSigil(s[i]) then
      Some(Parsed(QuantifierNode(held, Sigil(s[i])), i + 1))
    else if i < |s| && s[i] == '{' then
      match ParseBraces(s, i)
      case None => None
      case Some(Parsed(form, j)) => Some(Parsed(QuantifierNode(held, form), j))
    else None
  }

  /** The brace form at `i`: `{`, a decimal `min` that must be present, then either `}`
      or `,`, a `max` that may be missing, and `}`. It succeeds exactly when the digit run
      after `{` is not empty and is followed by `}`, or by `,`, another (possibly empty)
      digit run and `}`; `comma` records which. */
  function ParseBraces(s: seq<char>, i: nat): (r: Option<Parsed<QuantifierForm>>)
    requires i < |s| && s[i] == '{'
    ensures r.Some? ==> i < r.value.next <= |s| && FlattenQuantifierForm(r.value.node) == s[i..(r.value.next)]
    ensures r.Some? ==>
              r.value.node.Braces? && r.value.node.minDigits == s[i + 1..DigitRunEnd(s, i + 1)] &&
              |r.value.node.minDigits| > 0 &&
              AllDigits(r.value.node.minDigits) && AllDigits(r.value.node.maxDigits) &&
              (!r.value.node.comma ==> |r.value.node.maxDigits| == 0)
    ensures DigitRunEnd(s, i + 1) == i + 1 ==> r.None?
    ensures (var j := DigitRunEnd(s, i + 1);
             r.Some? <==>
               j > i + 1 && j < |s| &&
               (s[j] == '}' || (s[j] == ',' && DigitRunEnd(s, j + 1) < |s| && s[DigitRunEnd(s, j + 1)] == '}')))
    ensures r.Some? ==> (r.value.node.comma <==> s[DigitRunEnd(s, i + 1)] == ',')
  {
    var j := DigitRunEnd(s, i + 1);
    if j == i + 1 then None
    else if j < |s| && s[j] == ',' then
      var k := DigitRunEnd(s, j + 1);
      if k < |s| && s[k] == '}' then
        BracesText(s, i, j, k, true);
        Some(Parsed(Braces(s[i + 1..j], true, s[j + 1..k]), k + 1))
      else None
    else if j < |s| && s[j] == '}' then
      BracesText(s, i, j, j, false);
      Some(Parsed(Braces(s[i + 1..j], false, []), j + 1))
    else None
  }

  lemma BracesText(s: seq<char>, i: nat, j: nat, k: nat, comma: bool)
    requires i < j <= k < |s| && s[i] == '{' && s[k] == '}'
    requires (if comma then s[j] == ',' else j == k)
    ensures comma ==> FlattenQuantifierForm(Braces(s[i + 1..j], true, s[j + 1..k])) == s[i..k + 1]
    ensures !comma ==> FlattenQuantifierForm(Braces(s[i + 1..j], false, [])) == s[i..k + 1]
  {
    assert s[i..i + 1] == "{" && s[k..k + 1] == "}";
    if comma {
      assert s[j..j + 1] == ",";
      assert s[i..k + 1] == s[i..i + 1] + s[i + 1..j] + (s[j..j + 1] + s[j + 1..k]) + s[k..k + 1];
    } else {
      assert s[i..k + 1] == s[i..i + 1] + s[i + 1..j] + [] + s[k..k + 1];
    }
  }
}

=== FILE: scenarios.dfy ===
/** Concrete parses: the expected trees of the repository's grammar tests, and inputs
    that exercise the failure paths, the quantifier forms and the escape cooking. */
module Scenarios {
  import opened Wrappers
  import opened Lexical
  import opened Syntax
  import opened Escapes
  import opened FlagsParser
  import opened Quantifiers
  import opened Characters
  import opened Grammar
  import opened GrammarProperties

  lemma EmptyPatternScenario()
    ensures Parse("//") == Some(Pattern(Alternatives([Alternative([])], []), NoFlags))
  {
    var s := "//";
    assert ParseElements(s, 1, '/') == Some(Parsed([], 1));
    assert ParseAlternatives(s, 1, '/') == Some(Parsed(Alternatives([Alternative([])], []), 1));
    NoFlagsAtEnd(s, Alternatives([Alternative([])], []), 1);
  }

  /** `1|2` is two alternatives of one character each, split at `|`. */
  lemma AlternationBody()
    ensures ParseAlternatives("/1|2/", 1, '/') ==
              Some(Parsed(Alternatives([Alternative([CharacterElement(Literal('1'))]),
                                        Alternative([CharacterElement(Literal('2'))])], ['|']), 4))
  {
    var s := "/1|2/";
    var one, two := CharacterElement(Literal('1')), CharacterElement(Literal('2'));
    AlternationParts();
    assert [Alternative([one])] + [Alternative([two])] == [Alternative([one]), Alternative([two])];
    assert ['|'] + [] == ['|'];
  }

  lemma AlternationParts()
    ensures ParseElements("/1|2/", 1, '/') == Some(Parsed([CharacterElement(Literal('1'))], 2))
    ensures ParseAlternatives("/1|2/", 3, '/') ==
              Some(Parsed(Alternatives([Alternative([CharacterElement(Literal('2'))])], []), 4))
  {
    var s := "/1|2/";
    var one, two := CharacterElement(Literal('1')), CharacterElement(Literal('2'));
    LiteralAtom(s, 1, '/');
    PlainElement(s, 1, '/');
    assert ParseElement(s, 1, '/') == Some(Parsed(one, 2));
    assert ParseElements(s, 2, '/') == Some(Parsed([], 2));
    assert [one] + [] == [one];
    LiteralAtom(s, 3, '/');
    PlainElement(s, 3, '/');
    assert ParseElement(s, 3, '/') == Some(Parsed(two, 4));
    SingleElementBody(s, two, 3, 4);
  }

  lemma AlternationScenario()
    ensures Parse("/1|2/") ==
              Some(Pattern(Alternatives([Alternative([CharacterElement(Literal('1'))]),
                                         Alternative([CharacterElement(Literal('2'))])], ['|']), NoFlags))
  {
    AlternationBody();
    NoFlagsAtEnd("/1|2/", Alternatives([Alternative([CharacterElement(Literal('1'))]),
                                        Alternative([CharacterElement(Literal('2'))])], ['|']), 4);
  }

  lemma QuantifiedCharacterScenario()
    ensures Parse("/2+/") ==
              Some(Single([Quantifier(CharacterElement(Literal('2')), Sigil('+'), Finite(1), Infinity)]))
  {
    var s := "/2+/";
    var two := CharacterElement(Literal('2'));
    var q := Quantifier(two, Sigil('+'), Finite(1), Infinity);
    LiteralAtom(s, 1, '/');
    SigilAlwaysQuantifies(s, 1, Parsed(two, 2));
    assert ParseQuantifier(s, 2, two) == Some(Parsed(q, 3));
    assert ParseElement(s, 1, '/') == Some(Parsed(q, 3));
    SingleElementPattern(s, q, 3);
  }

  /** In `a*b` the element loop reads the quantified `a*`, then `b`, and stops at `/`. */
  lemma QuantifiedThenLiteralElements()
    ensures ParseElements("/a*b/", 1, '/') ==
              Some(Parsed([Quantifier(CharacterElement(Literal('a')), Sigil('*'), Null, Infinity),
                           CharacterElement(Literal('b'))], 4))
  {
    var s := "/a*b/";
    var a, b := CharacterElement(Literal('a')), CharacterElement(Literal('b'));
    var q := Quantifier(a, Sigil('*'), Null, Infinity);
    LiteralAtom(s, 1, '/');
    SigilAlwaysQuantifies(s, 1, Parsed(a, 2));
    assert ParseElement(s, 1, '/') == Some(Parsed(q, 3));
    LiteralAtom(s, 3, '/');
    PlainElement(s, 3, '/');
    assert ParseElement(s, 3, '/') == Some(Parsed(b, 4));
    assert ParseElements(s, 4, '/') == Some(Parsed([], 4));
    assert [b] + [] == [b];
    assert ParseElements(s, 3, '/') == Some(Parsed([b], 4));
    assert [q] + [b] == [q, b];
  }

  lemma QuantifiedThenLiteralScenario()
    ensures Parse("/a*b/") ==
              Some(Single([Quantifier(CharacterElement(Literal('a')), Sigil('*'), Null, Infinity),
                           CharacterElement(Literal('b'))]))
  {
    var s := "/a*b/";
    var es := [Quantifier(CharacterElement(Literal('a')), Sigil('*'), Null, Infinity),
               CharacterElement(Literal('b'))];
    QuantifiedThenLiteralElements();
    AlternativesLast(s, 1, '/');
    NoFlagsAtEnd(s, Alternatives([Alternative(es)], []), 4);
  }

  lemma LoneDashClassScenario()
    ensures Parse("/[-]/") == Some(Single([CharacterClass(false, [CharElement(Literal('-'))])]))
  {
    var s := "/[-]/";
    var dash := CharElement(Literal('-'));
    assert ParseClassAtom(s, 2) == Some(Parsed(dash, 3));
    assert ParseClassElement(s, 2) == Some(Parsed(dash, 3));
    assert ParseClassElements(s, 3) == Some(Parsed([], 3));
    assert [dash] + [] == [dash];
    assert ParseClassElements(s, 2) == Some(Parsed([dash], 3));
    assert ParseCharacterClass(s, 1) == Some(Parsed(CharacterClass(false, [dash]), 4));
    SingleClassPattern(s, CharacterClass(false, [dash]), 4);
  }

  /** In `[--]` the second `-` is followed by the closer, so it is no range operator. */
  lemma TwoDashElements()
    ensures ParseClassElements("/[--]/", 2) ==
              Some(Parsed([CharElement(Literal('-')), CharElement(Literal('-'))], 4))
  {
    var s := "/[--]/";
    var dash := CharElement(Literal('-'));
    assert ParseCharacter(s, 4, ClassCloser, CharacterClassSpan) == None;
    assert ParseClassAtom(s, 2) == Some(Parsed(dash, 3));
    assert ParseClassElement(s, 2) == Some(Parsed(dash, 3));
    assert ParseClassAtom(s, 3) == Some(Parsed(dash, 4));
    assert ParseClassElement(s, 3) == Some(Parsed(dash, 4));
    assert ParseClassElements(s, 4) == Some(Parsed([], 4));
    assert [dash] + [] == [dash];
    assert ParseClassElements(s, 3) == Some(Parsed([dash], 4));
    assert [dash] + [dash] == [dash, dash];
  }

  lemma TwoDashClassScenario()
    ensures Parse("/[--]/") ==
              Some(Single([CharacterClass(false, [CharElement(Literal('-')), CharElement(Literal('-'))])]))
  {
    var s := "/[--]/";
    var cls := CharacterClass(false, [CharElement(Literal('-')), CharElement(Literal('-'))]);
    TwoDashElements();
    assert ParseCharacterClass(s, 1) == Some(Parsed(cls, 5));
    SingleClassPattern(s, cls, 5);
  }

  /** In `[---]` the middle `-` is the range operator between two literal dashes. */
  lemma ThreeDashClassScenario()
    ensures Parse("/[---]/") ==
              Some(Single([CharacterClass(false, [CharacterClassRange(Literal('-'), Literal('-'))])]))
  {
    var s := "/[---]/";
    var cls := CharacterClass(false, [CharacterClassRange(Literal('-'), Literal('-'))]);
    PlainRange(s, 2);
    assert ParseCharacterClass(s, 1) == Some(Parsed(cls, 6));
    SingleClassPattern(s, cls, 6);
  }

  /** In `[\d-z]` the digit set is no range `min`: the `-` after it is a literal. */
  lemma DigitSetBeforeDashElements()
    ensures ParseClassElements("/[\\d-z]/", 2) ==
              Some(Parsed([SetElement(DigitCharacterSet('d', false)), CharElement(Literal('-')),
                           CharElement(Literal('z'))], 6))
  {
    var s := "/[\\d-z]/";
    var digit := SetElement(DigitCharacterSet('d', false));
    var dash := CharElement(Literal('-'));
    var z := CharElement(Literal('z'));
    assert s[2..4] == "\\d";
    assert ParseClassAtom(s, 2) == Some(Parsed(digit, 4));
    assert ParseClassElement(s, 2) == Some(Parsed(digit, 4));
    assert ParseClassAtom(s, 4) == Some(Parsed(dash, 5));
    assert ParseClassElement(s, 4) == Some(Parsed(dash, 5));
    assert ParseClassAtom(s, 5) == Some(Parsed(z, 6));
    assert ParseClassElement(s, 5) == Some(Parsed(z, 6));
    assert ParseClassElements(s, 6) == Some(Parsed([], 6));
    assert [z] + [] == [z];
    assert ParseClassElements(s, 5) == Some(Parsed([z], 6));
    assert [dash] + [z] == [dash, z];
    assert ParseClassElements(s, 4) == Some(Parsed([dash, z], 6));
    assert [digit] + [dash, z] == [digit, dash, z];
  }

  lemma DigitSetBeforeDashScenario()
    ensures Parse("/[\\d-z]/") ==
              Some(Single([CharacterClass(false, [SetElement(DigitCharacterSet('d', false)),
                                                  CharElement(Literal('-')), CharElement(Literal('z'))])]))
  {
    var s := "/[\\d-z]/";
    var cls := CharacterClass(false, [SetElement(DigitCharacterSet('d', false)),
                                      CharElement(Literal('-')), CharElement(Literal('z'))]);
    DigitSetBeforeDashElements();
    assert ParseCharacterClass(s, 1) == Some(Parsed(cls, 7));
    SingleClassPattern(s, cls, 7);
  }

  /** The flag letters `mi` switch on exactly `ignoreCase` and `multiline`. */
  lemma MiFlagAttributes()
    ensures FlagAttributes(FlagTable, "mi") ==
              [("global", false), ("ignoreCase", true), ("multiline", true),
               ("dotAll", false), ("unicode", false), ("sticky", false)]
  {
    assert 'g' !in "mi" && 's' !in "mi" && 'u' !in "mi" && 'y' !in "mi";
    assert 'i' in "mi" && 'm' in "mi";
  }

  /** The flag run `mi` has no repeated letter, so it is read whole. */
  lemma MiFlags()
    ensures ParseFlags("//mi", 2) == Some(Parsed(Flags(FlagAttributes(FlagTable, "mi"), "mi"), 4))
  {
    var s := "//mi";
    assert s[2..4] == "mi";
    assert FlagRunEnd(s, 2) == 4;
    assert (set c | c in "mi") == {'m', 'i'};
    assert Unique("mi");
  }

  lemma FlagsScenario()
    ensures Parse("//mi").Some?
    ensures (var f := Parse("//mi").value.flags;
             f.tokens == "mi" && f.attributes == FlagAttributes(FlagTable, "mi"))
  {
    var s := "//mi";
    var body := Alternatives([Alternative([])], []);
    assert ParseElements(s, 1, '/') == Some(Parsed([], 1));
    assert ParseAlternatives(s, 1, '/') == Some(Parsed(body, 1));
    MiFlags();
    assert ParsePattern(s, 0) == Some(Parsed(Pattern(body, Flags(FlagAttributes(FlagTable, "mi"), "mi")), 4));
  }

  lemma RepeatedFlagScenario()
    ensures Parse("//gg") == None
  {
    var s := "//gg";
    assert ParseAlternatives(s, 1, '/') == Some(Parsed(Alternatives([Alternative([])], []), 1));
    assert FlagRunEnd(s, 2) == 4;
    assert s[2..4][0] == s[2..4][1];
  }

  lemma NegatedWordSetScenario()
    ensures Parse("/\\W/") == Some(Single([CharSetElement(WordCharacterSet('W', true))]))
  {
    var s := "/\\W/";
    var w := CharSetElement(WordCharacterSet('W', true));
    assert ParseAtom(s, 1, '/') == Some(Parsed(w, 3));
    PlainElement(s, 1, '/');
    SingleElementPattern(s, w, 3);
  }

  lemma GapScenario()
    ensures Parse("/\\g/") == Some(Single([Gap]))
  {
    var s := "/\\g/";
    assert ParseAtom(s, 1, '/') == Some(Parsed(Gap, 3));
    PlainElement(s, 1, '/');
    SingleElementPattern(s, Gap, 3);
  }

  lemma EscapedLessThanScenario()
    ensures Parse("/\\</") == Some(Single([CharacterElement(Escaped(EscapeSequence(SimpleCode('<'))))]))
  {
    var s := "/\\</";
    var e := CharacterElement(Escaped(EscapeSequence(SimpleCode('<'))));
    assert ParseEscapeSequence(s, 1, PatternSpan) == Some(Parsed(EscapeSequence(SimpleCode('<')), 3));
    assert ParseAtom(s, 1, '/') == Some(Parsed(e, 3));
    PlainElement(s, 1, '/');
    SingleElementPattern(s, e, 3);
  }

  /** `\<` cooks to `<` and `\t` to a tab; `\<` is not an escape a character class
      accepts. */
  lemma EscapedLessThanOutsideClasses()
    ensures Cooked(EscapeSequence(SimpleCode('<'))) == Some("<")
    ensures Cooked(EscapeSequence(SimpleCode('t'))) == Some("\t")
    ensures ParseEscapeSequence("/\\</", 1, CharacterClassSpan) == None
  {
    assert LookupEscapable(['<']) == "<";
    assert !IsSpecialCharacter(CharacterClassSpan, '<');
  }

  /** The class `[ \t]` holds a literal space and an escaped tab. */
  lemma SpaceTabClass()
    ensures ParseCharacterClass("/[ \\t]+/", 1) ==
              Some(Parsed(CharacterClass(false, [CharElement(Literal(' ')),
                                                 CharElement(Escaped(EscapeSequence(SimpleCode('t'))))]), 6))
  {
    var s := "/[ \\t]+/";
    var sp := CharElement(Literal(' '));
    var tab := CharElement(Escaped(EscapeSequence(SimpleCode('t'))));
    assert ParseClassElement(s, 2) == Some(Parsed(sp, 3));
    assert ParseEscapeSequence(s, 3, CharacterClassSpan) == Some(Parsed(EscapeSequence(SimpleCode('t')), 5));
    assert ParseClassAtom(s, 3) == Some(Parsed(tab, 5));
    assert ParseClassElement(s, 3) == Some(Parsed(tab, 5));
    assert ParseClassElements(s, 5) == Some(Parsed([], 5));
    assert [tab] + [] == [tab];
    assert ParseClassElements(s, 3) == Some(Parsed([tab], 5));
    assert [sp] + [tab] == [sp, tab];
    assert ParseClassElements(s, 2) == Some(Parsed([sp, tab], 5));
  }

  lemma QuantifiedClassScenario()
    ensures Parse("/[ \\t]+/") ==
              Some(Single([Quantifier(CharacterClass(false, [CharElement(Literal(' ')),
                                                             CharElement(Escaped(EscapeSequence(SimpleCode('t'))))]),
                                      Sigil('+'), Finite(1), Infinity)]))
  {
    var s := "/[ \\t]+/";
    var cls := CharacterClass(false, [CharElement(Literal(' ')),
                                      CharElement(Escaped(EscapeSequence(SimpleCode('t'))))]);
    SpaceTabClass();
    assert ParseAtom(s, 1, '/') == Some(Parsed(cls, 6));
    var q := Quantifier(cls, Sigil('+'), Finite(1), Infinity);
    assert ParseQuantifier(s, 6, cls) == Some(Parsed(q, 7));
    assert ParseElement(s, 1, '/') == Some(Parsed(q, 7));
    SingleElementPattern(s, q, 7);
  }

  lemma LetterRangeScenario()
    ensures Parse("/[a-z]/") ==
              Some(Single([CharacterClass(false, [CharacterClassRange(Literal('a'), Literal('z'))])]))
  {
    var s := "/[a-z]/";
    var cls := CharacterClass(false, [CharacterClassRange(Literal('a'), Literal('z'))]);
    PlainRange(s, 2);
    assert ParseCharacterClass(s, 1) == Some(Parsed(cls, 6));
    SingleClassPattern(s, cls, 6);
  }

  /** `{n}` binds `min` and leaves `max` null. */
  lemma ExactBracesScenario()
    ensures ParseQuantifier("{2}", 0, Gap) == Some(Parsed(Quantifier(Gap, Braces("2", false, []), Finite(2), Null), 3))
  {
    assert "{2}"[1..2] == "2";
    assert ParseBraces("{2}", 0) == Some(Parsed(Braces("2", false, []), 3));
  }

  /** `{n,}` leaves `max` null too: the missing upper bound is not infinity. */
  lemma OpenBracesScenario()
    ensures ParseQuantifier("{2,}", 0, Gap) == Some(Parsed(Quantifier(Gap, Braces("2", true, []), Finite(2), Null), 4))
  {
    assert "{2,}"[1..2] == "2" && "{2,}"[3..3] == [];
    assert ParseBraces("{2,}", 0) == Some(Parsed(Braces("2", true, []), 4));
  }

  /** A zero bound is null, like a missing one. */
  lemma ZeroMinBracesScenario()
    ensures ParseQuantifier("{0,3}", 0, Gap) == Some(Parsed(Quantifier(Gap, Braces("0", true, "3"), Null, Finite(3)), 5))
  {
    assert "{0,3}"[1..2] == "0" && "{0,3}"[3..4] == "3";
    assert ParseBraces("{0,3}", 0) == Some(Parsed(Braces("0", true, "3"), 5));
  }

  /** The brace form needs its `min`. */
  lemma MissingMinBracesScenario()
    ensures ParseQuantifier("{,3}", 0, Gap) == None
  {
    assert ParseBraces("{,3}", 0) == None;
  }

  /** A sigil cannot start an element, so `*` right after `a+` is rejected. */
  lemma SigilStartsNoElement()
    ensures ParseElement("/a+*/", 3, '/') == None
    ensures ParseElements("/a+*/", 3, '/') == None
  {
  }

  lemma StackedSigilsScenario()
    ensures Parse("/a+*/") == None
  {
    var s := "/a+*/";
    var a := CharacterElement(Literal('a'));
    var q := Quantifier(a, Sigil('+'), Finite(1), Infinity);
    SigilStartsNoElement();
    LiteralAtom(s, 1, '/');
    SigilAlwaysQuantifies(s, 1, Parsed(a, 2));
    assert ParseQuantifier(s, 2, a) == Some(Parsed(q, 3));
    assert ParseElement(s, 1, '/') == Some(Parsed(q, 3));
    assert ParseElements(s, 1, '/') == None;
    assert ParseAlternatives(s, 1, '/') == None;
  }

  lemma LeadingSigilScenario()
    ensures Parse("/+/") == None
  {
    var s := "/+/";
    assert ParseElement(s, 1, '/') == None;
    assert ParseElements(s, 1, '/') == None;
    assert ParseAlternatives(s, 1, '/') == None;
    assert ParsePattern(s, 0) == None;
  }

  /** Inside the group the body runs to the end of the input, so `)` is never found. */
  lemma GroupBodyRunsToEnd()
    ensures ParseAlternatives("/(?:a/", 4, ')').Some? ==> ParseAlternatives("/(?:a/", 4, ')').value.next == 6
  {
    assert ParseElements("/(?:a/", 6, ')') == Some(Parsed([], 6));
  }

  lemma UnclosedGroupScenario()
    ensures Parse("/(?:a/") == None
  {
    var s := "/(?:a/";
    GroupBodyRunsToEnd();
    assert ParseGroup(s, 1) == None;
    assert ParseAtom(s, 1, '/') == None;
    assert ParseElement(s, 1, '/') == None;
    assert ParseElements(s, 1, '/') == None;
    assert ParseAlternatives(s, 1, '/') == None;
    assert ParsePattern(s, 0) == None;
  }

  /** The escape `\u0041` parses as a four-digit `u` code. The corrected cooking gives
      "65" (0x41); `getCooked` as written gives the raw text "u0041". */
  lemma UnicodeEscapeScenario()
    ensures ParseEscapeSequence("\\u0041", 0, PatternSpan) ==
              Some(Parsed(EscapeSequence(EscapeCode('u', false, "0041")), 6))
    ensures Cooked(EscapeSequence(EscapeCode('u', false, "0041"))) == Some("65")
    ensures CookedAsWritten(EscapeSequence(EscapeCode('u', false, "0041"))) == Some("u0041")
  {
    var s := "\\u0041";
    assert s[2..6] == "0041";
    assert ParseEscapeCode(s, 1) == Some(Parsed(EscapeCode('u', false, "0041"), 6));
    assert HexValue("0041") == 65 by {
      assert "0041"[..3] == "004" && "004"[..2] == "00" && "00"[..1] == "0" && "0"[..0] == [];
    }
    assert NatToDecimal(65) == "65" by {
      assert NatToDecimal(6) == "6";
    }
    assert FlattenCode(EscapeCode('u', false, "0041")) == "u0041";
  }
}

=== FILE: syntax.dfy ===
/** The concrete syntax tree of a regular-expression literal `/…/flags`.

    Every token a production consumes is kept: either as a field (a letter, a digit run,
    a separator) or as the constant its constructor implies (`(?:`, `]`, `\g`, …), so the
    `Flatten…` functions rebuild the exact source text of a node. Attributes the grammar
    binds (`negate`, `min`, `max`, the six flag booleans) are fields too. */
module Syntax {
  import opened Lexical

  /** A quantifier bound attribute: a positive number, `Infinity`, or the null tag. */
  datatype Bound = Null | Finite(n: nat) | Infinity

  /** The `code` slot of an `EscapeSequence`: a single keyword character, or an
      `EscapeCode` made of its type letter, optional braces and a digit run. */
  datatype Code =
    | SimpleCode(c: char)
    | EscapeCode(kind: char, braced: bool, digits: seq<char>)

  /** `\` followed by a code. */
  datatype EscapeSequence = EscapeSequence(code: Code)

  datatype Character = Literal(c: char) | Escaped(escape: EscapeSequence)

  /** `.` binds no attribute; the escaped sets keep their letter and bind `negate`. */
  datatype CharacterSet =
    | AnyCharacterSet
    | DigitCharacterSet(letter: char, negate: bool)
    | SpaceCharacterSet(letter: char, negate: bool)
    | WordCharacterSet(letter: char, negate: bool)

  /** Members of a character class. Both ends of a `CharacterClassRange` are
      `Character`s: a character set or a gap is never a range's `min`. */
  datatype ClassElement =
    | SetElement(charSet: CharacterSet)
    | GapElement
    | CharElement(character: Character)
    | CharacterClassRange(min: Character, max: Character)

  /** The tokens after a quantified element: one sigil, or `{min[,[max]]}`. */
  datatype QuantifierForm =
    | Sigil(sigil: char)
    | Braces(minDigits: seq<char>, comma: bool, maxDigits: seq<char>)

  datatype Element =
    | CharacterClass(negate: bool, elements: seq<ClassElement>)
    | Group(body: Alternatives)
    | StartOfInputAssertion
    | EndOfInputAssertion
    | WordBoundaryAssertion(letter: char, negate: bool)
    | Gap
    | CharSetElement(charSet: CharacterSet)
    | CharacterElement(character: Character)
    | Quantifier(element: Element, form: QuantifierForm, min: Bound, max: Bound)

  datatype Alternative = Alternative(elements: seq<Element>)

  /** The `alternatives[]` and `separators[]` slots shared by `Pattern` and `Group`. */
  datatype Alternatives = Alternatives(alternatives: seq<Alternative>, separators: seq<char>)

  /** Six `(name, present)` attributes and one keyword token per matched flag letter. */
  datatype Flags = Flags(attributes: seq<(string, bool)>, tokens: seq<char>)

  datatype Pattern = Pattern(body: Alternatives, flags: Flags)

  /** `flagCharacters`, in its declaration order. */
  const FlagTable: seq<(string, char)> :=
    [("global", 'g'), ("ignoreCase", 'i'), ("multiline", 'm'),
     ("dotAll", 's'), ("unicode", 'u'), ("sticky", 'y')]

  /** The value a bound attribute takes: numbers that are zero are bound as null, any
      other number as itself. */
  function BoundOf(n: nat): (b: Bound)
    ensures b == Null <==> n == 0
    ensures b != Infinity && (b.Finite? ==> b.n == n)
  {
    if n == 0 then Null else Finite(n)
  }

  /** The `min` attribute bound for a quantifier form. */
  function MinAttribute(form: QuantifierForm): (b: Bound)
    ensures b != Finite(0) && b != Infinity
    ensures form == Sigil('+') ==> b == Finite(1)
    ensures form.Sigil? && form.sigil != '+' ==> b == Null
    ensures form.Braces? && AllDigits(form.minDigits) ==>
              (b == Null <==> DecimalValue(form.minDigits) == 0) &&
              (b.Finite? ==> b.n == DecimalValue(form.minDigits))
  {
    match form
    case Sigil(c) => if c == '+' then Finite(1) else Null
    case Braces(lo, _, _) => if AllDigits(lo) then BoundOf(DecimalValue(lo)) else Null
  }

  /** The `max` attribute bound for a quantifier form: `Infinity` only for `*` and `+`;
      a brace form without digits after the comma, or without a comma, binds null. */
  function MaxAttribute(form: QuantifierForm): (b: Bound)
    ensures b != Finite(0)
    ensures b == Infinity <==> form == Sigil('*') || form == Sigil('+')
    ensures form == Sigil('?') ==> b == Finite(1)
    ensures form.Braces? && (!form.comma || |form.maxDigits| == 0) ==> b == Null
    ensures form.Braces? && form.comma && AllDigits(form.maxDigits) ==>
              (b.Finite? <==> |form.maxDigits| > 0 && DecimalValue(form.maxDigits) > 0) &&
              (b.Finite? ==> b.n == DecimalValue(form.maxDigits))
  {
    match form
    case Sigil(c) => if c == '*' || c == '+' then Infinity else if c == '?' then Finite(1) else Null
    case Braces(_, comma, hi) =>
      if comma && |hi| > 0 && AllDigits(hi) then BoundOf(DecimalValue(hi)) else Null
  }

  // ---------------------------------------------------------------------------
  // Source text of a node: the concatenation of its tokens in order.

  function FlattenCode(code: Code): seq<char> {
    match code
    case SimpleCode(c) => [c]
    case EscapeCode(kind, braced, digits) =>
      if braced then [kind] + "{" + digits + "}" else [kind] + digits
  }

  function FlattenEscape(e: EscapeSequence): seq<char> {
    "\\" + FlattenCode(e.code)
  }

  function FlattenCharacter(ch: Character): seq<char> {
    match ch
    case Literal(c) => [c]
    case Escaped(e) => FlattenEscape(e)
  }

  function FlattenCharacterSet(cs: CharacterSet): seq<char> {
    match cs
    case AnyCharacterSet => "."
    case DigitCharacterSet(l, _) => ['\\', l]
    case SpaceCharacterSet(l, _) => ['\\', l]
    case WordCharacterSet(l, _) => ['\\', l]
  }

  function FlattenClassElement(ce: ClassElement): seq<char> {
    match ce
    case SetElement(cs) => FlattenCharacterSet(cs)
    case GapElement => "\\g"
    case CharElement(ch) => FlattenCharacter(ch)
    case CharacterClassRange(lo, hi) => FlattenCharacter(lo) + "-" + FlattenCharacter(hi)
  }

  function FlattenClassElements(es: seq<ClassElement>): seq<char>
    decreases |es|
  {
    if |es| == 0 then [] else FlattenClassElement(es[0]) + FlattenClassElements(es[1..])
  }

  function FlattenQuantifierForm(form: QuantifierForm): seq<char> {
    match form
    case Sigil(c) => [c]
    case Braces(lo, comma, hi) => "{" + lo + (if comma then "," + hi else "") + "}"
  }

  function FlattenElement(e: Element): seq<char>
    decreases e
  {
    match e
    case CharacterClass(negate, es) => (if negate then "[^" else "[") + FlattenClassElements(es) + "]"
    case Group(body) => "(?:" + FlattenAlternatives(body) + ")"
    case StartOfInputAssertion => "^"
    case EndOfInputAssertion => "$"
    case WordBoundaryAssertion(l, _) => ['\\', l]
    case Gap => "\\g"
    case CharSetElement(cs) => FlattenCharacterSet(cs)
    case CharacterElement(ch) => FlattenCharacter(ch)
    case Quantifier(el, form, _, _) => FlattenElement(el) + FlattenQuantifierForm(form)
  }

  function FlattenElements(es: seq<Element>): seq<char>
    decreases es
  {
    if |es| == 0 then [] else FlattenElement(es[0]) + FlattenElements(es[1..])
  }

  /** Alternatives interleaved with their separators. */
  function FlattenAlternatives(a: Alternatives): seq<char>
    decreases a
  {
    FlattenAlternativeList(a.alternatives, a.separators)
  }

  function FlattenAlternativeList(alts: seq<Alternative>, seps: seq<char>): seq<char>
    decreases alts
  {
    if |alts| == 0 then []
    else if |alts| == 1 || |seps| == 0 then FlattenElements(alts[0].elements)
    else FlattenElements(alts[0].elements) + [seps[0]] + FlattenAlternativeList(alts[1..], seps[1..])
  }

  function FlattenPattern(p: Pattern): seq<char> {
    "/" + FlattenAlternatives(p.body) + "/" + p.flags.tokens
  }

  // ---------------------------------------------------------------------------
  // Attribute invariants: every bound attribute is the one its tokens determine.

  predicate WellFormedCharacterSet(cs: CharacterSet) {
    match cs
    case AnyCharacterSet => true
    case DigitCharacterSet(l, negate) => (l == 'd' || l == 'D') && (negate <==> l == 'D')
    case SpaceCharacterSet(l, negate) => (l == 's' || l == 'S') && (negate <==> l == 'S')
    case WordCharacterSet(l, negate) => (l == 'w' || l == 'W') && (negate <==> l == 'W')
  }

  predicate WellFormedClassElement(ce: ClassElement) {
    match ce
    case SetElement(cs) => WellFormedCharacterSet(cs)
    case GapElement => true
    case CharElement(_) => true
    case CharacterClassRange(_, _) => true
  }

  predicate WellFormedElement(e: Element)
    decreases e
  {
    match e
    case CharacterClass(_, es) => forall k {:trigger WellFormedClassElement(es[k])} :: 0 <= k < |es| ==> WellFormedClassElement(es[k])
    case Group(body) => WellFormedAlternatives(body)
    case StartOfInputAssertion => true
    case EndOfInputAssertion => true
    case WordBoundaryAssertion(l, negate) => (l == 'b' || l == 'B') && (negate <==> l == 'B')
    case Gap => true
    case CharSetElement(cs) => WellFormedCharacterSet(cs)
    case CharacterElement(_) => true
    case Quantifier(el, form, lo, hi) =>
      && !el.Quantifier?
      && WellFormedElement(el)
      && lo == MinAttribute(form)
      && hi == MaxAttribute(form)
  }

  predicate WellFormedAlternatives(a: Alternatives)
    decreases a
  {
    && |a.alternatives| == |a.separators| + 1
    && (forall k :: 0 <= k < |a.separators| ==> a.separators[k] == '|')
    && (forall k {:trigger WellFormedElementList(a.alternatives[k].elements)} ::
          0 <= k < |a.alternatives| ==> WellFormedElementList(a.alternatives[k].elements))
  }

  predicate WellFormedElementList(es: seq<Element>)
    decreases es
  {
    forall k {:trigger WellFormedElement(es[k])} :: 0 <= k < |es| ==> WellFormedElement(es[k])
  }
}

=== FILE: wrappers.dfy ===
/** Result shapes shared by every production of the grammar. */
module Wrappers {

  /** Failure of a production is `None`; the grammar has a single failure kind. */
  datatype Option<+T> = None | Some(value: T)

  /** A node produced by a production together with the position just after it. */
  datatype Parsed<+T> = Parsed(node: T, next: nat)
}
